=== FILE: README.md ===
# AutoDRIVE vehicle simulator scripts, modelled in Dafny

This project models the decision logic and bookkeeping of the Unity C# scripts
that drive the AutoDRIVE F1TENTH-style simulated vehicle, and proves properties
of that model. Each script is one module:

- `Lidar` covers the 2D laser scanner. It includes:
  - the measurement count and buffer allocation at start-up;
  - the fan of ray angles;
  - the per-ray range policy;
  - the fixed-tick scan timer, which subtracts the period when it fires;
  - the reading of the animated scanner head.
- `Pid` is the PID controller. Its integral term is the sum of a rolling
  first-in first-out window of the last `kS` errors.
- `Twist` is the twist-tracking loop. It runs one PID channel for linear
  velocity and one for angular velocity, and writes clamped throttle and
  steering commands.
- `VehicleController` covers the vehicle's actuation:
  - the clamping setters;
  - the rate-limited autonomous steering step;
  - the drive/brake torque table over drive and brake types;
  - skid-steer differential torques;
  - the one-tick lag of the reported throttle.
- `Lighting` is the light-flag state machine. Flags are set by keys, by the
  autonomous headlight and indicator states, and by the rounded velocity.
  The module also computes the lamp states these flags render to, including
  the half-second blink timer.
- `LapTimer` covers laps and checkpoints:
  - edge-triggered lap completion;
  - best-lap tracking;
  - in-order checkpoint counting from the digits of a checkpoint's name;
  - respawning;
  - the on-screen texts.
- `ResetManager` is the soft reset. It snapshots each vehicle's pose, encoders
  and lap counters at start-up and restores them later.
- `Tf` converts a child transform relative to its parent from Unity's axes to
  robotics axes: `(x, y, z)` becomes `(z, -x, y)`, and Euler degrees become
  radians.
- `Lidar3D` covers the 3D point-cloud side:
  - the 12-byte-per-point serializer;
  - the PCL12/24/48 record layouts;
  - the `LidarTF` point transform;
  - the precedence among the enabled formats;
  - switching off the terrain meshes.

`Common` holds the shared vocabulary. `Option`/`Result` stand for C#
exceptions. `Float` covers the single-precision special values the scripts
rely on: +infinity ranges and lap times, and division by a zero scan rate,
steering limit or motor torque. It also holds `Mathf.Clamp`, the `(int)` cast
that truncates toward zero, and C#'s `%`, whose remainder takes the sign of
the dividend.

Numbers are mathematical reals: single-precision rounding is not modelled.
Unity services become parameters:
- the physics ray cast is an oracle from a ray's yaw to an optional hit
  distance;
- `Time.deltaTime` and `Time.time` are arguments;
- key presses are arguments;
- the IMU feedback is an argument;
- `Math.Round(_, 2)` results are arguments, or an oracle in `Tf`;
- `BitConverter.GetBytes(float)` is an oracle returning a four-byte word.

Where the written behaviour differs from what the scripts' own names and
comments suggest, the model follows the code:
- `IntensityArray` is allocated but never written. Its only writer is
  commented out, so it stays all zeros rather than holding the sensor's
  `Intensity` field ("Intensity of the laser ray").
- The animated single-ray reading adds `MinimumLinearRange` to the hit
  distance. The scan stores the distance itself.
- The ray-direction table built in `Start` is never used: `LaserScan`
  rebuilds a local one from the head's current yaw.

## Model

| member | source | states |
|---|---|---|
| Common.Clamp | Assets/Models/F1TenthCar/Scripts/VehicleController.cs:72 | `Mathf.Clamp` lands in [lo, hi], keeps an in-range value, and maps values below or above to the matching bound |
| Common.ClampIdempotent | Assets/Scripts/TwistController.cs:63 | the setter's second clamp of an already clamped command changes nothing |
| Common.Trunc | Assets/Models/F1TenthCar/Scripts/LIDAR.cs:55 | the `(int)` cast truncates toward zero: floor for non-negative values, ceiling for negative ones |
| Common.Rem | Assets/Models/F1TenthCar/Scripts/LapTimer.cs:73 | C#'s `%` has the dividend's sign and magnitude below the divisor's, and agrees with Euclidean `%` for non-negative dividends |
| Common.FloatOrder | Assets/Models/F1TenthCar/Scripts/LIDAR.cs:102 | IEEE comparisons agree with the real order on finite values and put +infinity above every finite value |
| Lidar.MeasurementsPerScan | Assets/Models/F1TenthCar/Scripts/LIDAR.cs:55 | the count is the truncation of span / resolution + 1 |
| Lidar.DefaultCount | Assets/Models/F1TenthCar/Scripts/LIDAR.cs:28-30 | the shipped range 0..359 degrees at 1 degree gives 360 measurements |
| Lidar.RayAngleStep | Assets/Models/F1TenthCar/Scripts/LIDAR.cs:115-123 | ray 0 points at (yaw − min) in radians, and consecutive rays differ by exactly one resolution step; for a positive resolution the angles decrease with the index iff the minimum angle is ≤ 0, and for a negative resolution iff it is > 0 |
| Lidar.Start | Assets/Models/F1TenthCar/Scripts/LIDAR.cs:53-79 | start-up fails on a zero resolution or a negative count; otherwise both arrays have MeasurementsPerScan zero entries and the angle table follows the ray formula at the sensor's own yaw at start-up |
| Lidar.StartTableStale | Assets/Models/F1TenthCar/Scripts/LIDAR.cs:72-76 | the table built at start-up equals a scan's angles only if the head's yaw equals the sensor's yaw at start-up |
| Lidar.LaserScan | Assets/Models/F1TenthCar/Scripts/LIDAR.cs:113-148 | every index holds the hit distance if the ray hit beyond the minimum range and +infinity otherwise; nothing is added to the distance; intensities, timer and reading are unchanged |
| Lidar.Tick | Assets/Models/F1TenthCar/Scripts/LIDAR.cs:100-106 | a tick fires iff timer + dt ≥ 1/ScanRate (never for rate 0) and then subtracts one period instead of zeroing |
| Lidar.TickStaysInWindow | Assets/Models/F1TenthCar/Scripts/LIDAR.cs:100-106 | with dt ≤ period, a timer in [0, period) stays there |
| Lidar.RunConservesTime | Assets/Models/F1TenthCar/Scripts/LIDAR.cs:100-106 | over n ticks, residue + scans·period equals start + n·dt, so subtracting the period loses no time |
| Lidar.RunStaysInWindow | Assets/Models/F1TenthCar/Scripts/LIDAR.cs:100-106 | the [0, period) window holds over any number of ticks |
| Lidar.ScanCount | Assets/Models/F1TenthCar/Scripts/LIDAR.cs:100-106 | after n ticks the scan count k satisfies k·period ≤ start + n·dt < (k + 1)·period, so it is the number of whole periods elapsed (periods summed by repeated addition, which `TimesIsProduct` equates with multiplication) |
| Lidar.SweepReading | Assets/Models/F1TenthCar/Scripts/LIDAR.cs:91-92 | the animated head reads hit + MinimumLinearRange, or +infinity without a hit |
| Lidar.FixedUpdate | Assets/Models/F1TenthCar/Scripts/LIDAR.cs:81-107 | the reading is taken from the sweep or from the middle of the previous scan (an error on an empty scan), then the timer ticks and a scan runs iff it fires |
| Pid.New | Assets/Scripts/PIDController.cs:24-35 | the constructor keeps the gains, zeroes every term with an empty history, and fails exactly for a negative capacity |
| Pid.Push | Assets/Scripts/PIDController.cs:48-53 | after enqueue and the wind-up dequeue, the window is the last kS errors and the integral is their sum |
| Pid.Control | Assets/Scripts/PIDController.cs:37-65 | a non-positive timestep returns 0 and changes nothing; otherwise the output is kP·err + kI·errInt·dt + kD·(err − errPrev)/dt, errPrev and tPrev advance, and the window invariant is kept |
| Pid.Reset | Assets/Scripts/PIDController.cs:67-75 | the reset state is exactly what the constructor builds with the same gains |
| Pid.WindowIsRecentErrors | Assets/Scripts/PIDController.cs:45-57 | after any samples with increasing times, the history is the most recent kS errors in arrival order and the integral is their sum |
| Twist.StartChannel | Assets/Scripts/TwistController.cs:44-48 | an enabled channel gets a fresh controller, and fails if its capacity is negative; a disabled one gets none |
| Twist.Step | Assets/Scripts/TwistController.cs:54-66 | disabled writes nothing; setpoint 0 writes 0 and leaves the controller alone; otherwise error = setpoint − feedback and the command is the clamped controller output |
| Twist.Update | Assets/Scripts/TwistController.cs:51-82 | the throttle and steering receive the linear and angular commands, always in [−1, 1], and nothing else of the vehicle changes |
| Twist.ChannelsIndependent | Assets/Scripts/TwistController.cs:51-82 | the linear loop's result does not depend on the angular channel, and vice versa |
| Twist.ProportionalTracksSetpoint | Assets/Scripts/TwistController.cs:58-63 | a positive pure-P loop commands in the direction of the error and saturates once kP·error ≥ 1 |
| VehicleController.SetThrottle | Assets/Models/F1TenthCar/Scripts/VehicleController.cs:69-73 | the throttle setter stores the value clamped to [−1, 1] and changes nothing else |
| VehicleController.SetSteering | Assets/Models/F1TenthCar/Scripts/VehicleController.cs:75-79 | the steering setter stores the value clamped to [−1, 1] and changes nothing else |
| VehicleController.Approach | Assets/Models/F1TenthCar/Scripts/VehicleController.cs:127-133 | a decrement ends at or above the target and an increment at or below it, each either one step from the start or on the target |
| VehicleController.SteerAsWritten | Assets/Models/F1TenthCar/Scripts/VehicleController.cs:120-136 | manual mode sets −input·limit; autonomous mode ends on the side of the target its branch promises and records the angle as the last angle |
| VehicleController.TargetIsFixedPointAsWritten | Assets/Models/F1TenthCar/Scripts/VehicleController.cs:125-135 | as written, an angle resting on the target stays there |
| VehicleController.SteerAsWrittenSkipsRateLimit | Assets/Models/F1TenthCar/Scripts/VehicleController.cs:125-133 | as written, a 15° to −15° reversal jumps 30° in one 20 ms tick, beyond the 6.3° rate limit |
| VehicleController.Steer | Assets/Models/F1TenthCar/Scripts/VehicleController.cs:120-136 | the steering step with the corrected branch: same manual behaviour, same side-of-target guarantees |
| VehicleController.TargetIsFixedPoint | Assets/Models/F1TenthCar/Scripts/VehicleController.cs:125-135 | the corrected step keeps an angle that rests on the target |
| VehicleController.SteerIsRateLimited | Assets/Models/F1TenthCar/Scripts/VehicleController.cs:125-135 | the corrected step moves at most rate·dt, toward the target, and lands on it when within one step |
| VehicleController.Distribute | Assets/Models/F1TenthCar/Scripts/VehicleController.cs:173-261 | the drive/brake table: at zero torque, motors are off, CAWB brakes all wheels, CRWB brakes only the rear, and IAWB/IRWB leave brakes alone; negative torque under IAWB/IRWB brakes with −torque; otherwise brakes are released, driven wheels get the torque or their share of it summing to it, and other wheels are untouched |
| VehicleController.Drive | Assets/Models/F1TenthCar/Scripts/VehicleController.cs:165-174 | the drive torque is limit·throttle·motor torque from the manual or autonomous throttle, the brake torque is the motor torque, and the wheels follow the table |
| VehicleController.DifferentialDrive | Assets/Models/F1TenthCar/Scripts/VehicleController.cs:264-297 | zero inputs park all four wheels at the motor torque; otherwise front equals rear per side, right − left = AG·ang·TW/R and right + left = 2·LG·lin/R |
| VehicleController.FixedUpdate | Assets/Models/F1TenthCar/Scripts/VehicleController.cs:316-332 | manual mode makes the body dynamic; the mode and the autonomous commands stay; the reported throttle and steering come from the previous tick's state; for front, rear and all-wheel drive the script's own `Steer`, with the as-written branch test, sets the steering angles, and `Drive` sets the commanded torque, the motor torque as brake torque and the wheels by the drive table, leaving the skid inputs alone; skid steer leaves the steering angles and both torques alone and takes its inputs and wheels from `ExtendedDifferentialDrive` |
| VehicleController.FixedUpdateCorrected | Assets/Models/F1TenthCar/Scripts/VehicleController.cs:316-332 | the same tick outcome, wheels, brake torque and untouched fields included, with the corrected steering step in place of the as-written one |
| VehicleController.FixedUpdateSkipsRateLimit | Assets/Models/F1TenthCar/Scripts/VehicleController.cs:324 | the script's tick on the 15° to −15° reversal ends at −15°, a 30° move in one 20 ms tick |
| VehicleController.FixedUpdateCorrectedIsRateLimited | Assets/Models/F1TenthCar/Scripts/VehicleController.cs:125-135 | with the corrected step, one autonomous tick moves the steering angle by at most rate·dt |
| VehicleController.ReportedThrottleLags | Assets/Models/F1TenthCar/Scripts/VehicleController.cs:320-325 | the throttle reported on a tick is the torque commanded on the previous tick over the motor torque |
| Lighting.ManualKeys | Assets/Scripts/VehicleLighting.cs:105-144 | each key toggles its flag and clears the rest of its group, with the later key winning; the exclusivity of beams and indicators is kept |
| Lighting.Autonomous | Assets/Scripts/VehicleLighting.cs:147-201 | headlight state 0/1/2 and indicator state 0..3 select exclusive flags; other values leave their group unchanged |
| Lighting.Automatic | Assets/Scripts/VehicleLighting.cs:203-247 | the velocity is the recorded one while saving and the live one otherwise; brake lights are on iff it rounds to 0, and reverse lights iff it is negative |
| Lighting.BrakeAndReverseExclusive | Assets/Scripts/VehicleLighting.cs:203-247 | brake and reverse lights are never on together |
| Lighting.UpdateFlags | Assets/Scripts/VehicleLighting.cs:98-247 | one frame of flag logic keeps exclusivity, ignores keys and states outside modes 0 and 1, and never lights brake and reverse together |
| Lighting.ManualRunExclusive | Assets/Scripts/VehicleLighting.cs:108-143 | any sequence of key frames keeps at most one beam and at most one indicator mode on |
| Lighting.HeadLampState | Assets/Scripts/VehicleLighting.cs:253-295 | low beam lights lamp 1 only, high beam lamps 1 and 2, otherwise none |
| Lighting.TailLampState | Assets/Scripts/VehicleLighting.cs:297-337 | braking lights the tail lamp fully at full intensity, a headlight partially at half intensity, otherwise it is off with its intensity untouched |
| Lighting.Pattern | Assets/Scripts/VehicleLighting.cs:339-448 | left lights the left pair, right lights the right pair, hazard lights all four, with front and rear alike |
| Lighting.BlinkStep | Assets/Scripts/VehicleLighting.cs:339-464 | while blinking, the timer advances and the pattern is lit from 0.5 s; at 1 s everything goes off and the timer resets, so the timer stays below 1 s; with no indicator, all lamps are off and the timer is untouched |
| Lighting.BlinkSymmetry | Assets/Scripts/VehicleLighting.cs:340-448 | the right indicator blinks as the mirror image of the left, and the hazard pattern is the union of both |
| Lighting.BlinkRunInvariant | Assets/Scripts/VehicleLighting.cs:339-448 | over any frames with non-negative dt, the timer stays in [0, 1) and only the mode's pattern or nothing is lit |
| Lighting.Render | Assets/Scripts/VehicleLighting.cs:253-480 | the lamps are the head, tail, blink and reverse decisions applied to the current flags |
| Lighting.BlinkLitInvariant | Assets/Scripts/VehicleLighting.cs:339-448 | across frames, whatever the flags do, a lit indicator lamp means the blink timer is at least 0.5 s |
| Lighting.RenderConsistent | Assets/Scripts/VehicleLighting.cs:253-480 | with exclusive flags, lamp 2 is lit iff high beam is on, the tail lamp is never fully on while reversing, and only the active side blinks, including the frame that switches from one indicator to the other while the old side is lit |
| LapTimer.Inc | Assets/Models/F1TenthCar/Scripts/LapTimer.cs:44 | C#'s unchecked `int` increment adds one below int.MaxValue and wraps to int.MinValue at it |
| LapTimer.Digits | Assets/Models/F1TenthCar/Scripts/LapTimer.cs:54 | the digit filter keeps only digits, and yields nothing exactly when the name has no digit |
| LapTimer.DigitsOfDigits | Assets/Models/F1TenthCar/Scripts/LapTimer.cs:54 | a string of digits passes the filter unchanged |
| LapTimer.ParseCheckpoint | Assets/Models/F1TenthCar/Scripts/LapTimer.cs:54 | the checkpoint number is the decimal value of the name's digits; no digits is a format error and a value above int.MaxValue an overflow |
| LapTimer.OnTriggerEnter | Assets/Models/F1TenthCar/Scripts/LapTimer.cs:38-57 | a completing finish entry counts the lap, stores last and best, and clears the time and count; a checkpoint entry raises its flag first, then counts only the checkpoint after the previous one; a parse failure keeps the raised flag |
| LapTimer.OnTriggerExit | Assets/Models/F1TenthCar/Scripts/LapTimer.cs:59-64 | leaving a trigger clears both flags, records the current checkpoint as the previous one, and changes nothing else |
| LapTimer.Respawn | Assets/Models/F1TenthCar/Scripts/LapTimer.cs:66-81 | respawn picks checkpoint CheckpointCount % Length, in bounds, and counts one collision; a zero length divides by zero, and a count whose C# remainder is negative indexes out of range (a negative multiple of the length does not) |
| LapTimer.RespawnNegativeMultiple | Assets/Models/F1TenthCar/Scripts/LapTimer.cs:73 | a count of −3 with 3 checkpoints respawns at checkpoint 0, since C#'s −3 % 3 is 0, while a count of −2 indexes out of range at −2 |
| LapTimer.FixedUpdate | Assets/Models/F1TenthCar/Scripts/LapTimer.cs:106-109 | the lap time grows by exactly the physics step and nothing else changes |
| LapTimer.InitialTimesValid | Assets/Models/F1TenthCar/Scripts/LapTimer.cs:24-25 | the initial +infinity last and best times satisfy the lap-time invariant |
| LapTimer.StepKeepsBest | Assets/Models/F1TenthCar/Scripts/LapTimer.cs:44-46 | no event makes the best lap worse; a completed lap makes best = min(best, lap time) and last = lap time |
| LapTimer.RunKeepsBest | Assets/Models/F1TenthCar/Scripts/LapTimer.cs:41-49 | over any run of events, the best lap never increases and is never worse than the last lap |
| LapTimer.LapEdgeTriggered | Assets/Models/F1TenthCar/Scripts/LapTimer.cs:41-48 | a second finish entry before leaving the trigger counts nothing |
| LapTimer.CheckpointsInOrder | Assets/Models/F1TenthCar/Scripts/LapTimer.cs:51-56 | on any state, a checkpoint entry changes the count only to n and only when the previous checkpoint was n − 1, and always then; inside a checkpoint trigger, or on a name that does not parse, the count stays |
| LapTimer.NatToString | Assets/Models/F1TenthCar/Scripts/LapTimer.cs:95 | `ToString` of a non-negative int is a non-empty string of digits without a leading zero |
| LapTimer.IntToString | Assets/Models/F1TenthCar/Scripts/LapTimer.cs:94-95 | `ToString` of an int starts with '-' exactly for negative values |
| LapTimer.LapCountText | Assets/Models/F1TenthCar/Scripts/LapTimer.cs:94-95 | the lap count gets a leading "0" below ten, so a non-negative count shows at least two characters |
| LapTimer.DecimalValueOfNatToString | Assets/Models/F1TenthCar/Scripts/LapTimer.cs:95 | reading back the digits written for n gives n |
| LapTimer.DecimalValueLeadingZero | Assets/Models/F1TenthCar/Scripts/LapTimer.cs:94 | the padding "0" does not change the value |
| LapTimer.LapCountTextRoundTrip | Assets/Models/F1TenthCar/Scripts/LapTimer.cs:94-95 | the padded lap-count text parses back to the count |
| LapTimer.TimeText | Assets/Models/F1TenthCar/Scripts/LapTimer.cs:96-103 | +infinity shows as "--", values below ten get a leading "0", and the rest show unpadded |
| LapTimer.Update | Assets/Models/F1TenthCar/Scripts/LapTimer.cs:88-104 | the four texts follow those rules: the lap time is never dashes, and last and best are dashes iff infinite |
| LapTimer.InitialDisplay | Assets/Models/F1TenthCar/Scripts/LapTimer.cs:22-25 | before any lap the screen shows "00" laps and dashes for last and best |
| ResetManager.Capture | Assets/Scripts/ResetManager.cs:64-81 | a snapshot records the pose, both encoders and all eight lap-timer fields |
| ResetManager.Start | Assets/Scripts/ResetManager.cs:43-82 | there is one snapshot per vehicle, in order |
| ResetManager.Restore | Assets/Scripts/ResetManager.cs:91-107 | restoring stops co-simulation, freezes the body, and brings back exactly the recorded state, leaving the timer's edge flags alone |
| ResetManager.Update | Assets/Scripts/ResetManager.cs:84-121 | with the flag raised every vehicle is restored, otherwise only isKinematic is cleared; either way the flag ends lowered |
| ResetManager.ResetRestoresSnapshot | Assets/Scripts/ResetManager.cs:97-107 | after a reset, a new capture gives the recorded snapshots back |
| ResetManager.ResetAfterStartKeepsState | Assets/Scripts/ResetManager.cs:64-107 | a reset right after the snapshot changes only the co-simulation and kinematic switches |
| ResetManager.ResetIdempotent | Assets/Scripts/ResetManager.cs:97-107 | resetting twice gives the same state as resetting once |
| ResetManager.RestoreIdempotent | Assets/Scripts/ResetManager.cs:91-107 | restoring one vehicle twice from the same snapshot is restoring it once |
| Tf.UnityToRobotics | Assets/Scripts/TF.cs:24-26 | the axis change (x, y, z) ↦ (z, −x, y) is undone by its inverse |
| Tf.UnityToRoboticsIsReflection | Assets/Scripts/TF.cs:24-26 | the axis change is a length-preserving bijection with determinant −1, turning left-handed into right-handed |
| Tf.Position | Assets/Scripts/TF.cs:15-26 | the position array always has three entries |
| Tf.PositionIsConverted | Assets/Scripts/TF.cs:24-26 | the position is the Unity offset child − parent in robotics axes |
| Tf.PositionZero | Assets/Scripts/TF.cs:24-26 | the position is zero iff the two local positions coincide |
| Tf.PositionSwap | Assets/Scripts/TF.cs:24-26 | swapping child and parent negates every component |
| Tf.PositionTranslationInvariant | Assets/Scripts/TF.cs:24-26 | moving both transforms by one offset leaves the position unchanged |
| Tf.Angle | Assets/Scripts/TF.cs:30-35 | an angle rounding to 0 is stored raw; otherwise a mirrored angle becomes (360 − a)·π/180 and an unmirrored one a·π/180 |
| Tf.Orientation | Assets/Scripts/TF.cs:29-35 | roll comes from Unity z and yaw from Unity y, both mirrored; pitch comes from Unity x; each is raw when it rounds to 0 |
| Tf.FixedUpdate | Assets/Scripts/TF.cs:22-37 | both arrays are rewritten with three entries each |
| Tf.AngleDoesNotWrap | Assets/Scripts/TF.cs:31-35 | differences of a and a + 360 give results a full turn apart: there is no wrapping |
| Lidar3D.Record | Assets/Scripts/LIDAR3D.cs:137-144 | a point's record is 12 bytes, byte k holding byte k % 4 of coordinate k / 4 |
| Lidar3D.Packed | Assets/Scripts/LIDAR3D.cs:130-132 | a packed array of n points has 3·sizeof(float)·n = 12·n bytes |
| Lidar3D.PackedSlot | Assets/Scripts/LIDAR3D.cs:137-144 | bytes 12i + 4c .. 12i + 4c + 3 of a packed array hold the encoding of coordinate c of point i |
| Lidar3D.PackedRecord | Assets/Scripts/LIDAR3D.cs:134-145 | in a packed array, bytes [12i, 12i + 12) are exactly the record of point i |
| Lidar3D.CopyWord | Assets/Scripts/LIDAR3D.cs:142-144 | `Array.Copy` of a 4-byte word puts its bytes at the offset and leaves every other byte as it was |
| Lidar3D.ConvertVector3ArrayToByteArray | Assets/Scripts/LIDAR3D.cs:128-148 | allocating 12·n zero bytes and copying each point's x, y and z words to offsets 12i, 12i + 4 and 12i + 8 yields the packed array, with each point's record in its own 12-byte slot |
| Lidar3D.SlotOf | Assets/Scripts/LIDAR3D.cs:131-145 | every byte of an array of n records lies in a (point, coordinate, byte) slot: point < n, coordinate < 3, byte < 4 |
| Lidar3D.SlotsDisjoint | Assets/Scripts/LIDAR3D.cs:142-144 | the byte the copy of coordinate c of point i writes belongs to that slot and no other, so the three copies never overlap |
| Lidar3D.LayoutSizes | Assets/Scripts/LIDAR3D.cs:151-196 | PCL12, PCL24 and PCL48 records are 12, 24 and 48 bytes, matching the 12-byte packing and the read strides; each format extends the previous one, with intensity at 16, ring at 20, azimuth at 24, distance at 28 and time stamp at 40 |
| Lidar3D.FieldWithinRecord | Assets/Scripts/LIDAR3D.cs:100-114 | every field of record n lies inside that record's stride |
| Lidar3D.Transpose | Assets/Scripts/LIDAR3D.cs:33-40 | Unity's `Matrix4x4` constructor takes its vectors as columns, so it and `.transpose` both swap rows and columns of the written lines |
| Lidar3D.LidarTF | Assets/Scripts/LIDAR3D.cs:33-40 | after the transpose, the matrix's rows are the vectors as written |
| Lidar3D.LidarTFMatchesTf | Assets/Scripts/LIDAR3D.cs:35-40 | the point transform maps (x, y, z) to (z, −x, y), the axis change of TF.cs |
| Lidar3D.TransposeNeeded | Assets/Scripts/LIDAR3D.cs:33-40 | without the transpose, the matrix would apply the inverse axis change |
| Lidar3D.LastEnabled | Assets/Scripts/LIDAR3D.cs:88-114 | the published format is the last enabled one: PCL48 over PCL24 over PCL12 |
| Lidar3D.Publish | Assets/Scripts/LIDAR3D.cs:88-114 | the point cloud data ends as the last enabled format's buffer, or is unchanged with none enabled |
| Lidar3D.DisableTerrain | Assets/Scripts/LIDAR3D.cs:117-125 | when there are meshes and the first is on, all are switched off; otherwise none change |
| Lidar3D.DisableTerrainIdempotent | Assets/Scripts/LIDAR3D.cs:117-125 | a second switch-off changes nothing |

## Left out

- Physics ray casting is the oracle `cast` from a ray's yaw to an optional
  hit distance. The head position, the max-distance bound and the animated
  head's `Raycast` overload (which takes the layer mask as a distance) are
  inside the oracle.
- Lidar.Start: a zero resolution is an error of its own. Casting a
  non-finite count to `int` is platform dependent, as is a count above
  int.MaxValue; neither is modelled.
- Lidar.LaserScan: the ray-direction vectors (`Mathf.Sin/Cos`) and the scan
  mesh visualization are rendering, so they are left out. Only the angles
  are modelled.
- The animated scanner's spin (`Transform.Rotate`) is a Unity transform
  update and is not modelled.
- Trigonometry and library maths are not modelled: the Ackermann wheel
  angles (`Atan`/`Tan`) and `Math.Round`. Rounded values are inputs.
- Single-precision rounding is not modelled. In particular, `Pid.Control`'s
  integral is the exact sum of the window; in floats it drifts.
- VehicleController.DifferentialDrive requires a non-zero wheel radius. With
  a zero radius the script divides by zero and produces infinite or NaN
  torques, which the real-valued wheel torques cannot hold.
- VehicleController.FixedUpdate and VehicleController.FixedUpdateCorrected
  require a non-zero wheel radius for skid steer, for the same reason as
  `DifferentialDrive`.
- Tf.Position only states that the array has three entries. Its values are
  stated by `PositionIsConverted`, `PositionZero`, `PositionSwap` and
  `PositionTranslationInvariant`.
- `GetInput` is not modelled. The sampled throttle and steering inputs are
  parameters, since keyboard, mouse and joystick axes are Unity input.
- Lighting materials and `Light` components become lamp states. Null-checks
  on optional renderers are not modelled, since every lamp is assumed
  present.
- Lighting: `Math.Round(velocity, 2)` and the velocity's transformation into
  the vehicle frame are inputs.
- `Text` widgets and the `"f1"` number formatting of lap times are not
  modelled. Only the padding and dash decisions are.
- LapTimer.ParseCheckpoint: only ASCII digits are modelled. `Char.IsDigit`
  also accepts other Unicode decimal digits, which `int.Parse` then rejects.
- `Respawn`'s teleport is a rigid-body update, so it is not modelled: the
  model returns the index of the checkpoint to respawn at. The teleport
  zeroes the velocities and moves the body to that checkpoint's pose.
  The collision filter in `OnCollisionEnter` is a string equality on the
  event.
- ResetManager.Update requires as many snapshots as vehicles. `Start`
  establishes this, and mismatched inspector arrays, which would raise index
  errors, are not modelled. The per-vehicle components are one record here.
- Twist.Step requires an enabled channel to have a controller. A channel
  enabled after `Start` would dereference a null controller.
- Unity lifecycle and services: `MonoBehaviour` callbacks, `GetComponent`,
  wheel poses, `Debug.Log`, the profiler and the start-up warning in
  `LIDAR3D.Start`.
- The RGL plugin graph set-up and result retrieval in `LIDAR3D` are not
  modelled. The PCL24/PCL48 buffers are inputs.
- `BitConverter` float encoding is an oracle returning a four-byte word.
- `DataRecorder.cs` (file I/O and camera capture), `DataCompressor.cs` (GZip
  and Base64), `CoSimManager.cs` (pose interpolation),
  `UnselectGameObjects.cs` (UI selection) and `TestUnityMLAgent.cs`
  (ML-Agents glue) are not part of this model.

## Findings

| source | as written | input that shows it | evidently intended | confidence | as-written member | corrected member |
|---|---|---|---|---|---|---|
| Assets/Models/F1TenthCar/Scripts/VehicleController.cs:125 | `AutonomousSteering > lastSteeringAngle/SteeringLimit` picks the decrement branch | SteeringLimit 30, SteeringRate 315.789 deg/s, dt 0.02 s, SteeringAngle = lastSteeringAngle = 15, AutonomousSteering 0.5 (target −15): the increment branch runs, overshoots the target and snaps to −15, a 30° move against a 6.3° rate limit | compare with `-lastSteeringAngle/SteeringLimit`, the command that produced the last angle, since `SteeringAngle = -AutonomousSteering*SteeringLimit` at rest | medium, not executed | VehicleController.SteerAsWritten, VehicleController.SteerAsWrittenSkipsRateLimit, VehicleController.FixedUpdate, VehicleController.FixedUpdateSkipsRateLimit | VehicleController.Steer, VehicleController.SteerIsRateLimited, VehicleController.FixedUpdateCorrected, VehicleController.FixedUpdateCorrectedIsRateLimited |

=== FILE: common.dfy ===
/** Shared vocabulary of the vehicle-simulator model: optional values,
    error-carrying results, the single-precision special values the scripts
    rely on, and the few numeric helpers of Unity's `Mathf` and of C#'s
    integer arithmetic and float-to-int conversion.

    Numbers are mathematical reals: single-precision rounding is not modelled,
    but the infinities and not-a-number that the scripts produce or test for
    are, through `Float`. */
module Common {

  datatype Option<+T> = None | Some(value: T)

  datatype Result<+T, +E> = Ok(value: T) | Err(error: E)

  /** One byte of a serialized buffer. */
  newtype byte = b: int | 0 <= b < 256

  /** The largest value of a C# `int` (`int.MaxValue`). */
  const IntMax: int := 0x7FFF_FFFF

  /** Unity's `Mathf.Deg2Rad` (also written `Mathf.PI / 180`), as the
      single-precision constant the engine uses. */
  const Deg2Rad: real := 0.0174532924

  /** A float as far as the scripts distinguish it: a finite number, one of
      the two infinities, or not-a-number. */
  datatype Float = Num(v: real) | PosInf | NegInf | NaN

  /** IEEE division of two finite floats, the zero divisor being +0. */
  function Div(a: real, b: real): Float
  {
    if b != 0.0 then Num(a / b)
    else if a > 0.0 then PosInf
    else if a < 0.0 then NegInf
    else NaN
  }

  /** IEEE `x >= y`: false whenever either side is not-a-number. */
  predicate AtLeast(x: Float, y: Float)
  {
    match (x, y)
    case (NaN, _) => false
    case (_, NaN) => false
    case (PosInf, _) => true
    case (_, NegInf) => true
    case (NegInf, _) => false
    case (_, PosInf) => false
    case (Num(a), Num(b)) => a >= b
  }

  /** IEEE `x > y`. */
  predicate Above(x: Float, y: Float)
  {
    AtLeast(x, y) && x != y
  }

  /** `Above` and `AtLeast` agree with the order of the reals on finite values
      and put +infinity above every finite value. */
  lemma FloatOrder(a: real, b: real)
    ensures Above(Num(a), Num(b)) <==> a > b
    ensures AtLeast(Num(a), Num(b)) <==> a >= b
    ensures Above(PosInf, Num(a)) && !AtLeast(Num(a), PosInf)
  {
  }

  /** `Mathf.Clamp(value, lo, hi)`. */
  function Clamp(value: real, lo: real, hi: real): (r: real)
    requires lo <= hi
    ensures lo <= r <= hi
    ensures lo <= value <= hi ==> r == value
    ensures value < lo ==> r == lo
    ensures hi < value ==> r == hi
  {
    if value < lo then lo else if value > hi then hi else value
  }

  /** Clamping an already clamped value changes nothing. */
  lemma ClampIdempotent(value: real, lo: real, hi: real)
    requires lo <= hi
    ensures Clamp(Clamp(value, lo, hi), lo, hi) == Clamp(value, lo, hi)
  {
  }

  /** C#'s `(int)` cast of a finite float: truncation toward zero. */
  function Trunc(x: real): (n: int)
    ensures 0.0 <= x ==> 0 <= n && n as real <= x < n as real + 1.0
    ensures x < 0.0 ==> n <= 0 && n as real - 1.0 < x <= n as real
  {
    if x >= 0.0 then x.Floor else -((-x).Floor)
  }

  /** C#'s `%` on `int`: the remainder takes the sign of the dividend. */
  function Rem(a: int, b: int): (r: int)
    requires b != 0
    ensures 0 <= a ==> 0 <= r < (if b < 0 then -b else b)
    ensures a < 0 ==> -(if b < 0 then -b else b) < r <= 0
    ensures 0 <= a && 0 < b ==> r == a % b
    ensures a < 0 && 0 < b ==> r == -((-a) % b)
  {
    if a >= 0 then a % b else -((-a) % b)
  }
}

=== FILE: lap_timer.dfy ===
/** The lap and checkpoint bookkeeping of `LapTimer.cs`: edge-triggered lap
    completion at the finish line, best-lap tracking, in-order checkpoint
    counting from the digits of a checkpoint's name, respawning at the last
    counted checkpoint, and the texts of the on-screen timer.

    C# exceptions are results: `int.Parse` on the collected digits can fail
    with a format or overflow error, and `Respawn` can fail with a division
    by zero or an index out of range. As in Unity, an exception only ends
    the callback it is raised in: what the callback changed before it stays
    changed. */
module LapTimer {
  import opened Common

  const FinishLineTag: string := "Finish Line A"
  const CheckpointTag: string := "Checkpoint"

  /** The script's public counters and timers and its two private flags. */
  datatype Lap = Lap(
    currentCheckpoint: int,
    previousCheckpoint: int,
    collisionCount: int,
    checkpointCount: int,
    lapCount: int,
    lapTime: real,
    lastLapTime: Float,
    bestLapTime: Float,
    finishLineFlag: bool,
    checkpointFlag: bool)

  /** The field initialisers: no lap yet, so last and best are +infinity. */
  const Initial: Lap := Lap(0, 0, 0, 0, 0, 0.0, PosInf, PosInf, false, false)

  /** A C# `int`. */
  predicate IsInt32(n: int)
  {
    -IntMax - 1 <= n <= IntMax
  }

  /** C#'s unchecked `n + 1` on an `int`: `int.MaxValue + 1` wraps to
      `int.MinValue`. */
  function Inc(n: int): (r: int)
    ensures IsInt32(r)
    ensures IsInt32(n) && n < IntMax ==> r == n + 1
    ensures n == IntMax ==> r == -IntMax - 1
  {
    (n + 1 + IntMax + 1) % (2 * (IntMax + 1)) - (IntMax + 1)
  }

  // ---- Checkpoint names ----

  /** The decimal digits `int.Parse` accepts. */
  predicate IsDigit(c: char)
  {
    '0' <= c <= '9'
  }

  /** `name.Where(Char.IsDigit)`: the digits of a name, in order. */
  function Digits(name: string): (ds: string)
    ensures |ds| <= |name|
    ensures forall k :: 0 <= k < |ds| ==> IsDigit(ds[k])
    ensures |ds| == 0 <==> forall k :: 0 <= k < |name| ==> !IsDigit(name[k])
  {
    if |name| == 0 then ""
    else if IsDigit(name[0]) then [name[0]] + Digits(name[1..])
    else Digits(name[1..])
  }

  /** A string of digits keeps all of them. */
  lemma {:induction false} DigitsOfDigits(s: string)
    requires forall k :: 0 <= k < |s| ==> IsDigit(s[k])
    ensures Digits(s) == s
  {
    if |s| > 0 {
      DigitsOfDigits(s[1..]);
    }
  }

  function DigitValue(c: char): (d: nat)
    requires IsDigit(c)
    ensures d < 10
  {
    c as int - '0' as int
  }

  /** The value of a string of decimal digits, most significant first. */
  function DecimalValue(ds: string): (n: nat)
    requires forall k :: 0 <= k < |ds| ==> IsDigit(ds[k])
  {
    if |ds| == 0 then 0
    else 10 * DecimalValue(ds[..|ds| - 1]) + DigitValue(ds[|ds| - 1])
  }

  datatype ParseError = FormatError | OverflowError

  /** `int.Parse(string.Concat(name.Where(Char.IsDigit)))`: the digits of the
      name read as one decimal number; a name without digits is a format
      error and a value above `int.MaxValue` an overflow. */
  function ParseCheckpoint(name: string): (r: Result<int, ParseError>)
    ensures r == Err(FormatError) <==> forall k :: 0 <= k < |name| ==> !IsDigit(name[k])
    ensures r == Err(OverflowError) <==> |Digits(name)| > 0 && DecimalValue(Digits(name)) > IntMax
    ensures r.Ok? ==> 0 <= r.value <= IntMax && r.value == DecimalValue(Digits(name))
  {
    var ds := Digits(name);
    if |ds| == 0 then Err(FormatError)
    else if DecimalValue(ds) > IntMax then Err(OverflowError)
    else Ok(DecimalValue(ds))
  }

  // ---- Events ----

  datatype Entered = Entered(lap: Lap, fault: Option<ParseError>)

  /** `OnTriggerEnter` with a collider of tag `tag` and name `name`, on a
      track of `checkpoints` checkpoints. */
  function OnTriggerEnter(l: Lap, tag: string, name: string, checkpoints: nat): (e: Entered)
    ensures var completes := tag == FinishLineTag && !l.finishLineFlag && l.checkpointCount >= checkpoints - 1;
            && (completes ==>
                  && e.fault == None
                  && e.lap.lapCount == Inc(l.lapCount)
                  && e.lap.lastLapTime == Num(l.lapTime)
                  && e.lap.bestLapTime == (if Above(l.bestLapTime, Num(l.lapTime)) then Num(l.lapTime) else l.bestLapTime)
                  && e.lap.lapTime == 0.0
                  && e.lap.finishLineFlag
                  && e.lap.checkpointCount == 0
                  && e.lap == l.(lapCount := e.lap.lapCount, lastLapTime := e.lap.lastLapTime,
                                 bestLapTime := e.lap.bestLapTime, lapTime := 0.0,
                                 finishLineFlag := true, checkpointCount := 0))
            && (!completes && tag == CheckpointTag && !l.checkpointFlag ==>
                  && e.lap.checkpointFlag
                  && (ParseCheckpoint(name).Err? ==>
                        e.fault == Some(ParseCheckpoint(name).error) && e.lap == l.(checkpointFlag := true))
                  && (ParseCheckpoint(name).Ok? ==>
                        var n := ParseCheckpoint(name).value;
                        && e.fault == None
                        && e.lap.currentCheckpoint == n
                        && e.lap.checkpointCount == (if n == l.previousCheckpoint + 1 then n else l.checkpointCount)
                        && e.lap == l.(checkpointFlag := true, currentCheckpoint := n,
                                       checkpointCount := e.lap.checkpointCount)))
            && (!completes && !(tag == CheckpointTag && !l.checkpointFlag) ==> e == Entered(l, None))
  {
    if tag == FinishLineTag && !l.finishLineFlag && l.checkpointCount >= checkpoints - 1 then
      var best := if Above(l.bestLapTime, Num(l.lapTime)) then Num(l.lapTime) else l.bestLapTime;
      Entered(l.(lapCount := Inc(l.lapCount), lastLapTime := Num(l.lapTime), bestLapTime := best,
                 lapTime := 0.0, finishLineFlag := true, checkpointCount := 0), None)
    else if tag == CheckpointTag && !l.checkpointFlag then
      var flagged := l.(checkpointFlag := true);
      match ParseCheckpoint(name)
      case Err(err) => Entered(flagged, Some(err))
      case Ok(n) =>
        var count := if n == l.previousCheckpoint + 1 then n else l.checkpointCount;
        Entered(flagged.(currentCheckpoint := n, checkpointCount := count), None)
    else Entered(l, None)
  }

  /** `OnTriggerExit`: re-arm both edges and remember the checkpoint just
      left. */
  function OnTriggerExit(l: Lap): (l': Lap)
    ensures !l'.finishLineFlag && !l'.checkpointFlag
    ensures l'.previousCheckpoint == l.currentCheckpoint
    ensures l' == l.(finishLineFlag := false, checkpointFlag := false, previousCheckpoint := l'.previousCheckpoint)
  {
    l.(finishLineFlag := false, checkpointFlag := false, previousCheckpoint := l.currentCheckpoint)
  }

  datatype RespawnError = DivideByZero | IndexOutOfRange(index: int)

  /** The respawn point and the counters after a respawn. */
  datatype Respawned = Respawned(lap: Lap, checkpoint: nat)

  /** `Respawn`: return to checkpoint `CheckpointCount % Checkpoints.Length`
      and count one more collision. The remainder is C#'s, which is negative
      for a negative count that is not a multiple of the length, and then
      indexes out of range; with no checkpoints it divides by zero. */
  function Respawn(l: Lap, checkpoints: nat): (r: Result<Respawned, RespawnError>)
    ensures checkpoints == 0 <==> r == Err(DivideByZero)
    ensures checkpoints > 0 ==> (r.Ok? <==> Rem(l.checkpointCount, checkpoints) >= 0)
    ensures r.Ok? ==> r.value.checkpoint == Rem(l.checkpointCount, checkpoints)
    ensures r.Ok? ==> r.value.checkpoint < checkpoints
    ensures r.Ok? ==> r.value.lap == l.(collisionCount := Inc(l.collisionCount))
    ensures checkpoints > 0 && l.checkpointCount >= 0 ==>
              r.Ok? && r.value.checkpoint == l.checkpointCount % checkpoints
    ensures r.Err? && checkpoints > 0 ==> l.checkpointCount < 0
  {
    if checkpoints == 0 then Err(DivideByZero)
    else
      var index := Rem(l.checkpointCount, checkpoints);
      if index < 0 then Err(IndexOutOfRange(index))
      else Ok(Respawned(l.(collisionCount := Inc(l.collisionCount)), index))
  }

  /** A negative count that is a multiple of the length still respawns:
      C#'s -3 % 3 is 0, so only a negative remainder is out of range. */
  lemma RespawnNegativeMultiple()
    ensures Respawn(Initial.(checkpointCount := -3), 3).Ok?
    ensures Respawn(Initial.(checkpointCount := -3), 3).value.checkpoint == 0
    ensures Respawn(Initial.(checkpointCount := -2), 3) == Err(IndexOutOfRange(-2))
  {
    assert Rem(-3, 3) == 0;
    assert Rem(-2, 3) == -2;
  }

  /** `FixedUpdate`: the lap clock advances by one physics step. */
  function FixedUpdate(l: Lap, dt: real): (l': Lap)
    ensures l'.lapTime - l.lapTime == dt
    ensures l' == l.(lapTime := l'.lapTime)
  {
    l.(lapTime := l.lapTime + dt)
  }

  // ---- Lap history ----

  /** What the script reacts to: a trigger entered or left, a collision
      with a collider of the given name, a physics step. */
  datatype Event = Enter(tag: string, name: string) | Exit | Collide(name: string) | Tick(dt: real)

  /** One event; a collision with the track respawns (and a respawn that
      fails leaves everything as it was). */
  function Step(l: Lap, e: Event, checkpoints: nat, racetrack: string): Lap
  {
    match e
    case Enter(tag, name) => OnTriggerEnter(l, tag, name, checkpoints).lap
    case Exit => OnTriggerExit(l)
    case Collide(name) =>
      if name == racetrack then
        (match Respawn(l, checkpoints) case Ok(res) => res.lap case Err(_) => l)
      else l
    case Tick(dt) => FixedUpdate(l, dt)
  }

  function Run(l: Lap, events: seq<Event>, checkpoints: nat, racetrack: string): Lap
    decreases |events|
  {
    if |events| == 0 then l
    else Step(Run(l, events[..|events| - 1], checkpoints, racetrack), events[|events| - 1], checkpoints, racetrack)
  }

  /** The last and best lap times are finite or +infinity; the best is no
      worse than the last; and there is a best lap exactly when there is a
      last one. */
  predicate TimesValid(l: Lap)
  {
    && (l.lastLapTime.Num? || l.lastLapTime == PosInf)
    && (l.bestLapTime.Num? || l.bestLapTime == PosInf)
    && (l.lastLapTime == PosInf <==> l.bestLapTime == PosInf)
    && AtLeast(l.lastLapTime, l.bestLapTime)
  }

  lemma InitialTimesValid()
    ensures TimesValid(Initial)
  {
  }

  /** One event keeps the times valid and never makes the best lap worse;
      completing a lap makes the best lap the smaller of the old best and
      the lap just run. */
  lemma StepKeepsBest(l: Lap, e: Event, checkpoints: nat, racetrack: string)
    requires TimesValid(l)
    ensures var l' := Step(l, e, checkpoints, racetrack);
            && TimesValid(l')
            && AtLeast(l.bestLapTime, l'.bestLapTime)
            && (l'.lastLapTime != l.lastLapTime ==>
                  l'.lastLapTime == Num(l.lapTime)
                  && (l.bestLapTime == PosInf ==> l'.bestLapTime == Num(l.lapTime))
                  && (l.bestLapTime.Num? ==> l'.bestLapTime == Num(if l.lapTime < l.bestLapTime.v then l.lapTime else l.bestLapTime.v)))
  {
    match e
    case Enter(tag, name) =>
      var r := OnTriggerEnter(l, tag, name, checkpoints);
      if tag == FinishLineTag && !l.finishLineFlag && l.checkpointCount >= checkpoints - 1 {
        assert r.lap.lastLapTime == Num(l.lapTime);
      }
    case Exit =>
    case Collide(name) =>
    case Tick(dt) =>
  }

  /** Over any run of events the best lap never gets worse and never gets
      worse than the last lap. */
  lemma {:induction false} RunKeepsBest(l: Lap, events: seq<Event>, checkpoints: nat, racetrack: string)
    requires TimesValid(l)
    ensures TimesValid(Run(l, events, checkpoints, racetrack))
    ensures AtLeast(l.bestLapTime, Run(l, events, checkpoints, racetrack).bestLapTime)
  {
    if |events| > 0 {
      var init := events[..|events| - 1];
      RunKeepsBest(l, init, checkpoints, racetrack);
      var m := Run(l, init, checkpoints, racetrack);
      StepKeepsBest(m, events[|events| - 1], checkpoints, racetrack);
      AtLeastTransitive(l.bestLapTime, m.bestLapTime, Run(l, events, checkpoints, racetrack).bestLapTime);
    }
  }

  lemma AtLeastTransitive(x: Float, y: Float, z: Float)
    requires AtLeast(x, y) && AtLeast(y, z)
    ensures AtLeast(x, z)
  {
  }

  /** Completion is edge-triggered: after a lap completes, staying in (or
      re-entering) the finish trigger completes nothing more until the car
      has left it. */
  lemma LapEdgeTriggered(l: Lap, name: string, name2: string, checkpoints: nat)
    requires l.checkpointCount >= checkpoints - 1 && !l.finishLineFlag
    ensures var once := OnTriggerEnter(l, FinishLineTag, name, checkpoints).lap;
            var twice := OnTriggerEnter(once, FinishLineTag, name2, checkpoints).lap;
            && once.lapCount == Inc(l.lapCount)
            && twice == once
  {
  }

  /** Checkpoints count only in order: entering checkpoint `n` counts it
      exactly when the checkpoint left last was `n - 1`; while still inside
      a checkpoint trigger, or on a name that does not parse, the count
      stays. */
  lemma CheckpointsInOrder(l: Lap, name: string, checkpoints: nat)
    ensures var l' := OnTriggerEnter(l, CheckpointTag, name, checkpoints).lap;
            && (l.checkpointFlag || ParseCheckpoint(name).Err? ==> l'.checkpointCount == l.checkpointCount)
            && (!l.checkpointFlag && ParseCheckpoint(name).Ok? ==>
                  var n := ParseCheckpoint(name).value;
                  && (l'.checkpointCount != l.checkpointCount ==> l'.checkpointCount == n == l.previousCheckpoint + 1)
                  && (n == l.previousCheckpoint + 1 ==> l'.checkpointCount == n))
  {
  }

  // ---- On-screen texts ----

  /** `n.ToString()` for a non-negative `int`. */
  function NatToString(n: nat): (s: string)
    ensures |s| > 0
    ensures forall k :: 0 <= k < |s| ==> IsDigit(s[k])
    ensures n >= 10 ==> s[0] != '0'
  {
    if n < 10 then [('0' as int + n) as char]
    else NatToString(n / 10) + [('0' as int + n % 10) as char]
  }

  /** `n.ToString()` for any `int`. */
  function IntToString(n: int): (s: string)
    ensures |s| > 0
    ensures n < 0 <==> s[0] == '-'
  {
    if n < 0 then "-" + NatToString(-n) else NatToString(n)
  }

  /** The lap-count text, padded with a leading "0" below ten. */
  function LapCountText(n: int): (s: string)
    ensures n < 10 ==> s == "0" + IntToString(n)
    ensures n >= 10 ==> s == IntToString(n)
    ensures 0 <= n ==> 2 <= |s|
  {
    if n < 10 then "0" + IntToString(n) else IntToString(n)
  }

  /** Decimal digits read back give the number written. */
  lemma {:induction false} DecimalValueOfNatToString(n: nat)
    ensures DecimalValue(NatToString(n)) == n
  {
    if n >= 10 {
      DecimalValueOfNatToString(n / 10);
      var s := NatToString(n);
      assert s[..|s| - 1] == NatToString(n / 10);
    }
  }

  /** A leading zero does not change a decimal value. */
  lemma {:induction false} DecimalValueLeadingZero(ds: string)
    requires forall k :: 0 <= k < |ds| ==> IsDigit(ds[k])
    ensures DecimalValue("0" + ds) == DecimalValue(ds)
  {
    if |ds| > 0 {
      var init := ds[..|ds| - 1];
      DecimalValueLeadingZero(init);
      assert ("0" + ds)[..|ds|] == "0" + init;
    }
  }

  /** The lap-count text of a non-negative count reads back, through the
      checkpoint-name parser, as that count. */
  lemma LapCountTextRoundTrip(n: int)
    requires 0 <= n <= IntMax
    ensures ParseCheckpoint(LapCountText(n)) == Ok(n)
  {
    var s := NatToString(n);
    DecimalValueOfNatToString(n);
    if n < 10 {
      DigitsOfDigits("0" + s);
      DecimalValueLeadingZero(s);
    } else {
      DigitsOfDigits(s);
    }
  }

  /** How a lap time is shown: "--" for +infinity, otherwise the time with
      one decimal ("f1", not modelled), padded with a leading "0" below ten. */
  datatype TimeLabel = Dashes | Padded(time: Float) | Unpadded(time: Float)

  function TimeText(x: Float, infinityDashes: bool): (lab: TimeLabel)
    ensures lab == Dashes <==> infinityDashes && x == PosInf
    ensures lab.Padded? <==> !(infinityDashes && x == PosInf) && Above(Num(10.0), x)
    ensures lab != Dashes ==> lab.time == x
  {
    if infinityDashes && x == PosInf then Dashes
    else if Above(Num(10.0), x) then Padded(x)
    else Unpadded(x)
  }

  /** The four texts `Update` writes. */
  datatype Display = Display(lapTime: TimeLabel, lapCount: string, lastLap: TimeLabel, bestLap: TimeLabel)

  function Update(l: Lap): (d: Display)
    ensures d.lapTime != Dashes && (d.lapTime.Padded? <==> l.lapTime < 10.0)
    ensures d.lapCount == LapCountText(l.lapCount)
    ensures d.lastLap == Dashes <==> l.lastLapTime == PosInf
    ensures d.bestLap == Dashes <==> l.bestLapTime == PosInf
    ensures l.lastLapTime.Num? ==> (d.lastLap.Padded? <==> l.lastLapTime.v < 10.0)
    ensures l.bestLapTime.Num? ==> (d.bestLap.Padded? <==> l.bestLapTime.v < 10.0)
  {
    Display(TimeText(Num(l.lapTime), false), LapCountText(l.lapCount),
            TimeText(l.lastLapTime, true), TimeText(l.bestLapTime, true))
  }

  /** Before the first lap both lap times show "--" and the count "00". */
  lemma InitialDisplay()
    ensures Update(Initial) == Display(Padded(Num(0.0)), "00", Dashes, Dashes)
  {
  }
}

=== FILE: lidar.dfy ===
/** The 2D LIDAR scan engine of `LIDAR.cs`: sizing of the output buffers at
    start-up, the fixed-tick scan timer, the fan of ray angles and the range
    policy applied to each ray's first hit.

    Ray casting is an oracle `cast` from a ray's yaw angle (radians) to the
    distance of its first hit, if any; the oracle stands for
    `Physics.RaycastNonAlloc` from the vehicle's position, bounded to the
    maximum linear range. */
module Lidar {
  import opened Common

  /** The inspector-visible settings of the sensor. */
  datatype Config = Config(
    scanRate: real,          // Hz
    minLinearRange: real,    // m
    maxLinearRange: real,    // m
    minAngularRange: real,   // deg
    maxAngularRange: real,   // deg
    resolution: real,        // deg per measurement
    intensity: real)         // device intensity; never written to the buffer

  /** The settings the script ships with. */
  const Defaults: Config := Config(7.0, 0.15, 12.0, 0.0, 359.0, 1.0, 47.0)

  /** The sensor's state: the output buffer, the table `Start` precomputes,
      the scan timer and the single-ray reading of the animated head. */
  datatype Scanner = Scanner(
    config: Config,
    count: nat,                  // MeasurementsPerScan
    ranges: seq<Float>,          // RangeArray
    intensities: seq<real>,      // IntensityArray
    startAngles: seq<real>,      // ray angles precomputed by Start
    timer: real,
    currentMeasurement: Float)

  datatype StartError = ZeroResolution | NegativeArraySize(count: int)

  datatype TickError = MiddleIndexOutOfRange

  /** Buffers sized as `Start` sizes them. */
  predicate Valid(s: Scanner)
  {
    && |s.ranges| == s.count
    && |s.intensities| == s.count
    && |s.startAngles| == s.count
  }

  /** The measurement count before the cast to `int`. */
  function CountQuotient(c: Config): real
    requires c.resolution != 0.0
  {
    (c.maxAngularRange - c.minAngularRange) / c.resolution + 1.0
  }

  /** `MeasurementsPerScan`: the span over the resolution, plus one,
      truncated toward zero. */
  function MeasurementsPerScan(c: Config): (n: int)
    requires c.resolution != 0.0
    ensures 0.0 <= CountQuotient(c) ==> 0 <= n && n as real <= CountQuotient(c) < n as real + 1.0
    ensures CountQuotient(c) < 0.0 ==> n <= 0 && CountQuotient(c) <= n as real
  {
    Trunc(CountQuotient(c))
  }

  /** The shipped settings give one measurement per degree over 0..359. */
  lemma DefaultCount()
    ensures MeasurementsPerScan(Defaults) == 360
  {
    assert CountQuotient(Defaults) == 360.0;
  }

  /** +1 or -1, the sign the resolution step is taken with: for a positive
      resolution the ray angles decrease with the index when the minimum
      angle is not positive and increase otherwise; a negative resolution
      reverses both. */
  function Direction(c: Config): int
  {
    if c.minAngularRange <= 0.0 then -1 else 1
  }

  /** The yaw of ray `i` (radians) for a head whose yaw is `yaw` degrees. */
  function RayAngle(c: Config, yaw: real, i: int): real
  {
    (yaw - c.minAngularRange) * Deg2Rad + (i as real * (c.resolution * Deg2Rad)) * Direction(c) as real
  }

  /** Ray 0 points at the initial angle and consecutive rays are one
      resolution step apart, in the direction `Direction` gives. */
  lemma RayAngleStep(c: Config, yaw: real, i: int)
    ensures RayAngle(c, yaw, 0) == (yaw - c.minAngularRange) * Deg2Rad
    ensures RayAngle(c, yaw, i + 1) - RayAngle(c, yaw, i) == Direction(c) as real * c.resolution * Deg2Rad
    ensures c.resolution > 0.0 ==> (RayAngle(c, yaw, i + 1) < RayAngle(c, yaw, i) <==> c.minAngularRange <= 0.0)
    ensures c.resolution < 0.0 ==> (RayAngle(c, yaw, i + 1) < RayAngle(c, yaw, i) <==> 0.0 < c.minAngularRange)
  {
    var inc := c.resolution * Deg2Rad;
    var d := Direction(c) as real;
    assert (i + 1) as real * inc * d == i as real * inc * d + inc * d;
    if c.resolution > 0.0 {
      assert inc > 0.0;
    } else if c.resolution < 0.0 {
      assert inc < 0.0;
    }
  }

  /** Sensor start-up: size and allocate both arrays and precompute the
      angle table from the sensor's own yaw `sensorYaw` (degrees) at start-up. */
  function Start(c: Config, sensorYaw: real): (r: Result<Scanner, StartError>)
    ensures c.resolution == 0.0 ==> r == Err(ZeroResolution)
    ensures c.resolution != 0.0 && MeasurementsPerScan(c) < 0 ==> r == Err(NegativeArraySize(MeasurementsPerScan(c)))
    ensures c.resolution != 0.0 && MeasurementsPerScan(c) >= 0 ==> r.Ok?
    ensures r.Ok? ==> c.resolution != 0.0 && r.value.count == MeasurementsPerScan(c)
    ensures r.Ok? ==> Valid(r.value) && r.value.config == c && r.value.timer == 0.0
    ensures r.Ok? ==> forall i :: 0 <= i < r.value.count ==> r.value.intensities[i] == 0.0 && r.value.ranges[i] == Num(0.0)
    ensures r.Ok? ==> forall i :: 0 <= i < r.value.count ==> r.value.startAngles[i] == RayAngle(c, sensorYaw, i)
  {
    if c.resolution == 0.0 then Err(ZeroResolution)
    else
      var n := MeasurementsPerScan(c);
      if n < 0 then Err(NegativeArraySize(n))
      else
        Ok(Scanner(c, n, seq(n, _ => Num(0.0)), seq(n, _ => 0.0),
                   seq(n, i => RayAngle(c, sensorYaw, i)), 0.0, Num(0.0)))
  }

  /** The table of `Start` matches the angles a later scan uses only when
      the head's yaw at that scan equals the sensor's yaw at start-up. */
  lemma StartTableStale(c: Config, sensorYaw: real, headYaw: real, i: int)
    ensures RayAngle(c, sensorYaw, i) == RayAngle(c, headYaw, i) <==> sensorYaw == headYaw
  {
    assert RayAngle(c, sensorYaw, i) - RayAngle(c, headYaw, i) == (sensorYaw - headYaw) * Deg2Rad;
  }

  /** What the scan stores for one ray whose first hit is `hit`: the hit
      distance itself when beyond the minimum range, +infinity otherwise. */
  predicate RangePolicy(r: Float, hit: Option<real>, minRange: real)
  {
    && (r == PosInf <==> (hit.None? || hit.value <= minRange))
    && (r != PosInf ==> hit.Some? && r == Num(hit.value))
  }

  /** `LaserScan`: build the fan of ray angles for the current head yaw,
      cast every ray and overwrite the range buffer in place. */
  method LaserScan(s: Scanner, headYaw: real, cast: real -> Option<real>) returns (s': Scanner)
    requires Valid(s)
    ensures Valid(s') && s'.count == s.count && s'.config == s.config
    ensures forall i :: 0 <= i < s.count ==>
              RangePolicy(s'.ranges[i], cast(RayAngle(s.config, headYaw, i)), s.config.minLinearRange)
    ensures s'.intensities == s.intensities && s'.startAngles == s.startAngles
    ensures s'.timer == s.timer && s'.currentMeasurement == s.currentMeasurement
  {
    // the local direction table, shadowing the one Start built
    var angles: seq<real> := [];
    var i := 0;
    while i < s.count
      invariant 0 <= i <= s.count
      invariant |angles| == i
      invariant forall j :: 0 <= j < i ==> angles[j] == RayAngle(s.config, headYaw, j)
    {
      angles := angles + [RayAngle(s.config, headYaw, i)];
      i := i + 1;
    }

    var ranges := s.ranges;
    i := 0;
    while i < s.count
      invariant 0 <= i <= s.count
      invariant |ranges| == s.count
      invariant forall j :: 0 <= j < i ==>
                  RangePolicy(ranges[j], cast(angles[j]), s.config.minLinearRange)
    {
      var hit := cast(angles[i]);
      if hit.Some? {
        var d := hit.value;
        ranges := ranges[i := if d > s.config.minLinearRange then Num(d) else PosInf];
      } else {
        ranges := ranges[i := PosInf];
      }
      i := i + 1;
    }
    s' := s.(ranges := ranges);
  }

  /** The period `1f / ScanRate`, +infinity when the rate is zero. */
  function Period(scanRate: real): Float
  {
    Div(1.0, scanRate)
  }

  datatype TimerStep = TimerStep(timer: real, fire: bool)

  /** One fixed tick of the scan timer: add the tick, fire at most once,
      and on firing subtract the period rather than zeroing. */
  function Tick(timer: real, dt: real, scanRate: real): (r: TimerStep)
    ensures r.fire <==> scanRate != 0.0 && timer + dt >= 1.0 / scanRate
    ensures r.fire ==> r.timer == timer + dt - 1.0 / scanRate
    ensures !r.fire ==> r.timer == timer + dt
  {
    var t := timer + dt;
    if AtLeast(Num(t), Period(scanRate)) then TimerStep(t - 1.0 / scanRate, true)
    else TimerStep(t, false)
  }

  /** With a tick no longer than the period, a timer in [0, period) stays
      there. */
  lemma TickStaysInWindow(timer: real, dt: real, scanRate: real)
    requires scanRate > 0.0
    requires 0.0 <= dt <= 1.0 / scanRate
    requires 0.0 <= timer < 1.0 / scanRate
    ensures 0.0 <= Tick(timer, dt, scanRate).timer < 1.0 / scanRate
  {
  }

  /** The timer after `n` ticks of length `dt`, and how many scans fired. */
  function Run(timer: real, dt: real, scanRate: real, n: nat): (r: (real, nat))
    decreases n
  {
    if n == 0 then (timer, 0)
    else
      var prev := Run(timer, dt, scanRate, n - 1);
      var step := Tick(prev.0, dt, scanRate);
      (step.timer, prev.1 + if step.fire then 1 else 0)
  }

  /** `x` added to itself `n` times. */
  function Times(n: nat, x: real): (r: real)
  {
    if n == 0 then 0.0 else Times(n - 1, x) + x
  }

  /** Repeated addition is multiplication. */
  lemma {:induction false} TimesIsProduct(n: nat, x: real)
    ensures Times(n, x) == n as real * x
  {
    if n > 0 {
      TimesIsProduct(n - 1, x);
      assert (n - 1) as real * x + x == n as real * x;
    }
  }

  /** Drift-free accumulation: the residue plus the fired periods always
      equals the start value plus the elapsed time. */
  lemma {:induction false} RunConservesTime(timer: real, dt: real, scanRate: real, n: nat)
    requires scanRate > 0.0
    ensures Run(timer, dt, scanRate, n).0 + Times(Run(timer, dt, scanRate, n).1, 1.0 / scanRate)
            == timer + Times(n, dt)
  {
    if n > 0 {
      RunConservesTime(timer, dt, scanRate, n - 1);
      var prev := Run(timer, dt, scanRate, n - 1);
      var step := Tick(prev.0, dt, scanRate);
      if step.fire {
        assert Run(timer, dt, scanRate, n) == (step.timer, prev.1 + 1);
        assert Times(prev.1 + 1, 1.0 / scanRate) == Times(prev.1, 1.0 / scanRate) + 1.0 / scanRate;
      } else {
        assert Run(timer, dt, scanRate, n) == (step.timer, prev.1);
      }
    }
  }

  /** With a tick no longer than the period and a timer starting in
      [0, period), the timer stays in that window over any number of ticks. */
  lemma {:induction false} RunStaysInWindow(timer: real, dt: real, scanRate: real, n: nat)
    requires scanRate > 0.0
    requires 0.0 <= dt <= 1.0 / scanRate
    requires 0.0 <= timer < 1.0 / scanRate
    ensures 0.0 <= Run(timer, dt, scanRate, n).0 < 1.0 / scanRate
  {
    if n > 0 {
      RunStaysInWindow(timer, dt, scanRate, n - 1);
      TickStaysInWindow(Run(timer, dt, scanRate, n - 1).0, dt, scanRate);
    }
  }

  /** Scan cadence: after `n` ticks the number of scans `k` is the number
      of whole periods in the starting residue plus the elapsed time
      (`Times(k, p)` is k·p, see `TimesIsProduct`). */
  lemma ScanCount(timer: real, dt: real, scanRate: real, n: nat)
    requires scanRate > 0.0
    requires 0.0 <= dt <= 1.0 / scanRate
    requires 0.0 <= timer < 1.0 / scanRate
    ensures var k := Run(timer, dt, scanRate, n).1;
            Times(k, 1.0 / scanRate) <= timer + Times(n, dt) < Times(k + 1, 1.0 / scanRate)
  {
    RunConservesTime(timer, dt, scanRate, n);
    RunStaysInWindow(timer, dt, scanRate, n);
  }

  /** The single-ray reading of the animated head: the hit distance plus
      the minimum range, or +infinity. */
  function SweepReading(hit: Option<real>, minRange: real): (r: Float)
    ensures hit.None? <==> r == PosInf
    ensures hit.Some? ==> r == Num(hit.value + minRange)
  {
    if hit.Some? then Num(hit.value + minRange) else PosInf
  }

  /** `FixedUpdate`: refresh `CurrentMeasurement` (from the animated head's
      ray, or from the middle of the previous scan), advance the timer and
      scan when it fires. */
  method FixedUpdate(s: Scanner, animate: bool, dt: real, sweepHit: Option<real>,
                     headYaw: real, cast: real -> Option<real>)
    returns (r: Result<Scanner, TickError>)
    requires Valid(s)
    ensures !animate && s.count == 0 <==> r.Err?
    ensures r.Ok? ==> Valid(r.value) && r.value.count == s.count && r.value.config == s.config
    ensures r.Ok? ==> r.value.intensities == s.intensities && r.value.startAngles == s.startAngles
    ensures r.Ok? && animate ==> r.value.currentMeasurement == SweepReading(sweepHit, s.config.minLinearRange)
    ensures r.Ok? && !animate ==> r.value.currentMeasurement == s.ranges[s.count / 2]
    ensures r.Ok? ==> r.value.timer == Tick(s.timer, dt, s.config.scanRate).timer
    ensures r.Ok? && !Tick(s.timer, dt, s.config.scanRate).fire ==> r.value.ranges == s.ranges
    ensures r.Ok? && Tick(s.timer, dt, s.config.scanRate).fire ==>
              forall i :: 0 <= i < s.count ==>
                RangePolicy(r.value.ranges[i], cast(RayAngle(s.config, headYaw, i)), s.config.minLinearRange)
  {
    var reading: Float;
    if animate {
      reading := SweepReading(sweepHit, s.config.minLinearRange);
    } else {
      if s.count / 2 >= |s.ranges| {
        return Err(MiddleIndexOutOfRange);
      }
      reading := s.ranges[s.count / 2];
    }
    var next := s.(currentMeasurement := reading);
    var step := Tick(s.timer, dt, s.config.scanRate);
    if step.fire {
      next := LaserScan(next, headYaw, cast);
    }
    r := Ok(next.(timer := step.timer));
  }
}

=== FILE: lidar3d.dfy ===
/** The point-cloud side of `LIDAR3D.cs`: how hit points are packed into
    12-byte records, the byte layouts of the PCL12, PCL24 and PCL48 formats,
    the fixed Unity-to-robotics point transform, the precedence among the
    enabled formats, and the switching-off of terrain meshes after the first
    scan.

    The single-precision encoding of a float (`BitConverter.GetBytes`) is an
    opaque parameter `encode` returning a four-byte word. */
module Lidar3D {
  import opened Common
  import Tf

  /** The four bytes `BitConverter.GetBytes` returns for one float. */
  datatype Word = Word(b0: byte, b1: byte, b2: byte, b3: byte)

  function WordByte(w: Word, k: nat): byte
    requires k < 4
  {
    if k == 0 then w.b0 else if k == 1 then w.b1 else if k == 2 then w.b2 else w.b3
  }

  /** Coordinate `c` (0 for x, 1 for y, 2 for z) of a point. */
  function Component(v: Tf.Vec3, c: nat): real
    requires c < 3
  {
    if c == 0 then v.x else if c == 1 then v.y else v.z
  }

  /** `3 * sizeof(float)`. */
  const VectorSize: nat := 12

  /** Byte `k` of a point's record: byte `k % 4` of coordinate `k / 4`. */
  function RecordByte(v: Tf.Vec3, k: nat, encode: real -> Word): byte
    requires k < VectorSize
  {
    WordByte(encode(Component(v, k / 4)), k % 4)
  }

  /** The record of one point. */
  function Record(v: Tf.Vec3, encode: real -> Word): (r: seq<byte>)
    ensures |r| == VectorSize
    ensures forall k :: 0 <= k < VectorSize ==> r[k] == RecordByte(v, k, encode)
  {
    var x := encode(v.x);
    var y := encode(v.y);
    var z := encode(v.z);
    [x.b0, x.b1, x.b2, x.b3, y.b0, y.b1, y.b2, y.b3, z.b0, z.b1, z.b2, z.b3]
  }

  /** The records of all points, back to back. */
  function Packed(vs: seq<Tf.Vec3>, encode: real -> Word): (r: seq<byte>)
    ensures |r| == VectorSize * |vs|
    decreases |vs|
  {
    if |vs| == 0 then [] else Packed(vs[..|vs| - 1], encode) + Record(vs[|vs| - 1], encode)
  }

  /** The slot layout of a packed array: bytes [12i, 12i+4), [12i+4,
      12i+8) and [12i+8, 12i+12) hold the encodings of the x, y and z of
      point i. */
  lemma {:induction false} PackedSlot(vs: seq<Tf.Vec3>, encode: real -> Word, i: nat, c: nat, k: nat)
    requires i < |vs| && c < 3 && k < 4
    ensures VectorSize * i + 4 * c + k < |Packed(vs, encode)|
    ensures Packed(vs, encode)[VectorSize * i + 4 * c + k] == WordByte(encode(Component(vs[i], c)), k)
  {
    var n := |vs| - 1;
    var prefix := Packed(vs[..n], encode);
    var record := Record(vs[n], encode);
    assert Packed(vs, encode) == prefix + record;
    SlotInRecord(c, k);
    if i < n {
      PackedSlot(vs[..n], encode, i, c, k);
      SlotBefore(i, n, c, k);
      assert vs[..n][i] == vs[i];
    } else {
      assert record[4 * c + k] == RecordByte(vs[n], 4 * c + k, encode);
    }
  }

  /** The records of a packed array sit at stride 12: bytes [12i, 12i+12)
      are the record of point i. */
  lemma {:induction false} PackedRecord(vs: seq<Tf.Vec3>, encode: real -> Word, i: nat)
    requires i < |vs|
    ensures VectorSize * (i + 1) <= |Packed(vs, encode)|
    ensures Packed(vs, encode)[VectorSize * i .. VectorSize * (i + 1)] == Record(vs[i], encode)
  {
    var n := |vs| - 1;
    var prefix := Packed(vs[..n], encode);
    var last := Record(vs[n], encode);
    assert Packed(vs, encode) == prefix + last;
    var lo, hi := VectorSize * i, VectorSize * (i + 1);
    if i < n {
      PackedRecord(vs[..n], encode, i);
      assert vs[..n][i] == vs[i];
      SliceOfLeft(prefix, last, lo, hi);
    } else {
      assert lo == |prefix|;
      SliceOfRight(prefix, last);
    }
  }

  /** A slice inside the left operand of a concatenation. */
  lemma SliceOfLeft(a: seq<byte>, b: seq<byte>, lo: nat, hi: nat)
    requires lo <= hi <= |a|
    ensures (a + b)[lo..hi] == a[lo..hi]
  {
  }

  /** The right operand of a concatenation, as a slice of it. */
  lemma SliceOfRight(a: seq<byte>, b: seq<byte>)
    ensures (a + b)[|a|..|a| + |b|] == b
  {
  }

  /** `System.Array.Copy(word, 0, dst, at, 4)`: the four bytes of `w` land
      at `dst[at .. at + 4]` and every other byte stays. */
  function CopyWord(dst: seq<byte>, w: Word, at: nat): (r: seq<byte>)
    requires at + 4 <= |dst|
    ensures |r| == |dst|
    ensures forall k :: 0 <= k < 4 ==> r[at + k] == WordByte(w, k)
    ensures forall q :: 0 <= q < |dst| && !(at <= q < at + 4) ==> r[q] == dst[q]
  {
    dst[..at] + [w.b0, w.b1, w.b2, w.b3] + dst[at + 4..]
  }

  /** `ConvertVector3ArrayToByteArray`: allocate 12 zero bytes per point,
      then copy the encodings of point i's x, y and z to offsets 12i,
      12i + 4 and 12i + 8. The result is the records of all points back to
      back, each point's record in its own 12-byte slot. */
  method ConvertVector3ArrayToByteArray(vs: seq<Tf.Vec3>, encode: real -> Word) returns (bytes: seq<byte>)
    ensures |bytes| == VectorSize * |vs|
    ensures bytes == Packed(vs, encode)
    ensures forall i :: 0 <= i < |vs| ==> bytes[VectorSize * i .. VectorSize * (i + 1)] == Record(vs[i], encode)
  {
    bytes := seq(VectorSize * |vs|, _ => 0);
    var i := 0;
    while i < |vs|
      invariant 0 <= i <= |vs|
      invariant |bytes| == VectorSize * |vs|
      invariant bytes[..VectorSize * i] == Packed(vs[..i], encode)
      invariant forall q :: VectorSize * i <= q < |bytes| ==> bytes[q] == 0
    {
      var xBytes := encode(vs[i].x);
      var yBytes := encode(vs[i].y);
      var zBytes := encode(vs[i].z);
      ghost var before := bytes;
      bytes := CopyWord(bytes, xBytes, i * VectorSize);
      bytes := CopyWord(bytes, yBytes, i * VectorSize + 4);
      bytes := CopyWord(bytes, zBytes, i * VectorSize + 8);
      CopiedRecord(before, bytes, vs, encode, i);
      assert vs[..i + 1][..i] == vs[..i];
      i := i + 1;
    }
    assert bytes == bytes[..VectorSize * |vs|];
    assert vs[..|vs|] == vs;
    forall j | 0 <= j < |vs|
      ensures bytes[VectorSize * j .. VectorSize * (j + 1)] == Record(vs[j], encode)
    {
      PackedRecord(vs, encode, j);
    }
  }

  /** One round of the copy loop: the slot of point i now holds its record,
      the bytes before it are untouched and the bytes after it still 0. */
  lemma CopiedRecord(before: seq<byte>, after: seq<byte>, vs: seq<Tf.Vec3>, encode: real -> Word, i: nat)
    requires i < |vs| && |before| == |after| == VectorSize * |vs|
    requires forall k :: 0 <= k < 4 ==> after[VectorSize * i + k] == WordByte(encode(vs[i].x), k)
    requires forall k :: 0 <= k < 4 ==> after[VectorSize * i + 4 + k] == WordByte(encode(vs[i].y), k)
    requires forall k :: 0 <= k < 4 ==> after[VectorSize * i + 8 + k] == WordByte(encode(vs[i].z), k)
    requires forall q :: 0 <= q < |before| && !(VectorSize * i <= q < VectorSize * (i + 1)) ==> after[q] == before[q]
    requires before[..VectorSize * i] == Packed(vs[..i], encode)
    requires forall q :: VectorSize * i <= q < |before| ==> before[q] == 0
    ensures after[..VectorSize * (i + 1)] == Packed(vs[..i + 1], encode)
    ensures forall q :: VectorSize * (i + 1) <= q < |after| ==> after[q] == 0
  {
    var record := Record(vs[i], encode);
    assert after[VectorSize * i .. VectorSize * (i + 1)] == record by {
      forall k | 0 <= k < VectorSize
        ensures after[VectorSize * i + k] == record[k]
      {
        var c, o := k / 4, k % 4;
        assert k == 4 * c + o;
        if c == 0 {
          assert after[VectorSize * i + o] == WordByte(encode(vs[i].x), o);
        } else if c == 1 {
          assert after[VectorSize * i + 4 + o] == WordByte(encode(vs[i].y), o);
        } else {
          assert after[VectorSize * i + 8 + o] == WordByte(encode(vs[i].z), o);
        }
      }
    }
    assert after[..VectorSize * i] == before[..VectorSize * i];
    assert after[..VectorSize * (i + 1)] == after[..VectorSize * i] + after[VectorSize * i .. VectorSize * (i + 1)];
    assert vs[..i + 1] == vs[..i] + [vs[i]];
    assert vs[..i + 1][..i] == vs[..i];
  }

  lemma SlotInRecord(c: nat, k: nat)
    requires c < 3 && k < 4
    ensures 4 * c + k < VectorSize && (4 * c + k) / 4 == c && (4 * c + k) % 4 == k
  {
  }

  lemma SlotBefore(j: nat, i: nat, c: nat, k: nat)
    requires j < i && c < 3 && k < 4
    ensures VectorSize * j + 4 * c + k < VectorSize * i
  {
  }

  /** A byte's slot: the point, the coordinate and the byte within that
      coordinate's encoding. */
  datatype Slot = Slot(point: nat, coord: nat, offset: nat)

  /** The slots cover the array: every byte position of an array of `n`
      records lies in the slot of point `p / 12`, coordinate `(p % 12) / 4`,
      byte `p % 4`. */
  function SlotOf(n: nat, p: nat): (s: Slot)
    requires p < VectorSize * n
    ensures s.point < n && s.coord < 3 && s.offset < 4
    ensures p == VectorSize * s.point + 4 * s.coord + s.offset
  {
    var i, r := p / VectorSize, p % VectorSize;
    assert p == VectorSize * i + r && r < VectorSize;
    var c, k := r / 4, r % 4;
    assert r == 4 * c + k && c < 3 && k < 4;
    Mod4(p, 3 * i + c, k);
    Slot(i, c, k)
  }

  lemma Mod4(p: nat, q: nat, k: nat)
    requires k < 4 && p == 4 * q + k
    ensures p % 4 == k
  {
  }

  /** The slots are disjoint: a byte position lies in one slot only. */
  lemma SlotsDisjoint(n: nat, i: nat, c: nat, k: nat)
    requires i < n && c < 3 && k < 4
    ensures SlotOf(n, VectorSize * i + 4 * c + k) == Slot(i, c, k)
  {
    DivMod(i, 4 * c + k, VectorSize * i + 4 * c + k);
    SlotInRecord(c, k);
  }

  lemma DivMod(i: nat, r: nat, p: nat)
    requires r < VectorSize && p == VectorSize * i + r
    ensures p / VectorSize == i && p % VectorSize == r
  {
  }

  // ---- Record layouts ----

  /** The RGL fields the formats use. */
  datatype Field =
    | XyzF32 | IntensityF32 | RingIdU16 | AzimuthF32 | DistanceF32
    | ReturnTypeU8 | TimeStampF64 | Padding8 | Padding16 | Padding32

  function FieldSize(f: Field): (n: nat)
    ensures n > 0
  {
    match f
    case XyzF32 => 12
    case IntensityF32 => 4
    case RingIdU16 => 2
    case AzimuthF32 => 4
    case DistanceF32 => 4
    case ReturnTypeU8 => 1
    case TimeStampF64 => 8
    case Padding8 => 1
    case Padding16 => 2
    case Padding32 => 4
  }

  const Pcl12: seq<Field> := [XyzF32]
  const Pcl24: seq<Field> := [XyzF32, Padding32, IntensityF32, RingIdU16, Padding16]
  const Pcl48: seq<Field> :=
    [XyzF32, Padding32, IntensityF32, RingIdU16, Padding16,
     AzimuthF32, DistanceF32, ReturnTypeU8, Padding8, Padding16, Padding32, TimeStampF64]

  /** Bytes of one record with the given fields. */
  function RecordSize(fs: seq<Field>): nat
    decreases |fs|
  {
    if |fs| == 0 then 0 else RecordSize(fs[..|fs| - 1]) + FieldSize(fs[|fs| - 1])
  }

  /** Byte offset of field `i` within a record. */
  function Offset(fs: seq<Field>, i: nat): (o: nat)
    requires i < |fs|
    ensures o + FieldSize(fs[i]) <= RecordSize(fs)
  {
    RecordSizePrefix(fs, i + 1);
    assert fs[..i + 1][..i] == fs[..i];
    RecordSize(fs[..i])
  }

  lemma {:induction false} RecordSizePrefix(fs: seq<Field>, n: nat)
    requires n <= |fs|
    ensures RecordSize(fs[..n]) <= RecordSize(fs)
    decreases |fs|
  {
    if n < |fs| {
      assert fs[..|fs| - 1][..n] == fs[..n];
      RecordSizePrefix(fs[..|fs| - 1], n);
    } else {
      assert fs[..n] == fs;
    }
  }

  lemma RecordSizeAppend(fs: seq<Field>, f: Field)
    ensures RecordSize(fs + [f]) == RecordSize(fs) + FieldSize(f)
  {
    assert (fs + [f])[..|fs|] == fs;
  }

  /** The record sizes are the strides the script reads with (24 and 48)
      and the 12 bytes `ConvertVector3ArrayToByteArray` writes per point;
      each format extends the one before it, so a reader of the smaller
      format finds its fields at the same offsets in the larger one. */
  lemma LayoutSizes()
    ensures RecordSize(Pcl12) == VectorSize
    ensures RecordSize(Pcl24) == 24
    ensures RecordSize(Pcl48) == 48
    ensures Pcl24[..|Pcl12|] == Pcl12 && Pcl48[..|Pcl24|] == Pcl24
    ensures Offset(Pcl24, 2) == 16 && Offset(Pcl24, 3) == 20
    ensures Offset(Pcl48, 5) == 24 && Offset(Pcl48, 6) == 28 && Offset(Pcl48, 11) == 40
  {
    LayoutPcl24();
    LayoutPcl48();
  }

  /** The 12- and 24-byte layouts, field by field. */
  lemma LayoutPcl24()
    ensures RecordSize(Pcl12) == VectorSize && RecordSize(Pcl24) == 24
    ensures Pcl24[..1] == Pcl12
    ensures Offset(Pcl24, 2) == 16 && Offset(Pcl24, 3) == 20
  {
    var p0: seq<Field> := [];
    var p1 := p0 + [XyzF32];
    var p2 := p1 + [Padding32];
    var p3 := p2 + [IntensityF32];
    var p4 := p3 + [RingIdU16];
    var p5 := p4 + [Padding16];
    RecordSizeAppend(p0, XyzF32);
    RecordSizeAppend(p1, Padding32);
    RecordSizeAppend(p2, IntensityF32);
    RecordSizeAppend(p3, RingIdU16);
    RecordSizeAppend(p4, Padding16);
    assert Pcl12 == p1 && Pcl24 == p5;
    assert Pcl24[..1] == p1 && Pcl24[..2] == p2 && Pcl24[..3] == p3;
  }

  /** The 48-byte layout continues the 24-byte one. */
  lemma LayoutPcl48()
    ensures RecordSize(Pcl48) == 48 && Pcl48[..5] == Pcl24
    ensures Offset(Pcl48, 5) == 24 && Offset(Pcl48, 6) == 28 && Offset(Pcl48, 11) == 40
  {
    LayoutPcl24();
    var p5 := Pcl24;
    var p6 := p5 + [AzimuthF32];
    var p7 := p6 + [DistanceF32];
    var p8 := p7 + [ReturnTypeU8];
    var p9 := p8 + [Padding8];
    var p10 := p9 + [Padding16];
    var p11 := p10 + [Padding32];
    var p12 := p11 + [TimeStampF64];
    RecordSizeAppend(p5, AzimuthF32);
    RecordSizeAppend(p6, DistanceF32);
    RecordSizeAppend(p7, ReturnTypeU8);
    RecordSizeAppend(p8, Padding8);
    RecordSizeAppend(p9, Padding16);
    RecordSizeAppend(p10, Padding32);
    RecordSizeAppend(p11, TimeStampF64);
    assert Pcl48 == p12;
    assert Pcl48[..5] == p5 && Pcl48[..6] == p6 && Pcl48[..11] == p11;
  }

  /** Two records of one format do not overlap: field `i` of record `n`
      lies within bytes [n * size, (n + 1) * size). */
  lemma FieldWithinRecord(fs: seq<Field>, n: nat, i: nat)
    requires i < |fs|
    ensures RecordSize(fs) * n <= RecordSize(fs) * n + Offset(fs, i)
    ensures RecordSize(fs) * n + Offset(fs, i) + FieldSize(fs[i]) <= RecordSize(fs) * (n + 1)
  {
  }

  // ---- Point transform ----

  type Matrix = seq<seq<real>>

  predicate Is4x4(m: Matrix)
  {
    |m| == 4 && forall r :: 0 <= r < 4 ==> |m[r]| == 4
  }

  /** Rows become columns. Unity's `Matrix4x4(c0, c1, c2, c3)` takes its
      arguments as columns, so the matrix it builds from four vectors is the
      transpose of those vectors written as rows. */
  function Transpose(m: Matrix): (t: Matrix)
    requires Is4x4(m)
    ensures Is4x4(t)
    ensures forall r, c :: 0 <= r < 4 && 0 <= c < 4 ==> t[r][c] == m[c][r]
  {
    seq(4, r requires 0 <= r < 4 => seq(4, c requires 0 <= c < 4 => m[c][r]))
  }

  /** The four vectors as written in the source, one per line. */
  const LidarTFLines: Matrix :=
    [[0.0, 0.0, 1.0, 0.0],
     [-1.0, 0.0, 0.0, 0.0],
     [0.0, 1.0, 0.0, 0.0],
     [0.0, 0.0, 0.0, 1.0]]

  /** `LidarTF`: the constructor takes the lines as columns (one
      transpose) and `.transpose` turns them back, so the lines are its
      rows. */
  function LidarTF(): (m: Matrix)
    ensures Is4x4(m)
    ensures m == LidarTFLines
  {
    var m := Transpose(Transpose(LidarTFLines));
    assert forall r :: 0 <= r < 4 ==> m[r] == LidarTFLines[r];
    m
  }

  /** A point in homogeneous coordinates times a matrix. */
  function Apply(m: Matrix, v: Tf.Vec3): (p: seq<real>)
    requires Is4x4(m)
    ensures |p| == 4
  {
    seq(4, r requires 0 <= r < 4 => m[r][0] * v.x + m[r][1] * v.y + m[r][2] * v.z + m[r][3])
  }

  /** The point transform is the axis conversion `TF.cs` uses for positions. */
  lemma LidarTFMatchesTf(v: Tf.Vec3)
    ensures var r := Tf.UnityToRobotics(v);
            Apply(LidarTF(), v) == [r.x, r.y, r.z, 1.0]
  {
    var p := Apply(LidarTF(), v);
    assert p[0] == v.z && p[1] == -v.x && p[2] == v.y && p[3] == 1.0;
  }

  /** Without the transpose, the matrix would map robotics axes back to
      Unity's instead. */
  lemma TransposeNeeded(v: Tf.Vec3)
    ensures var r := Tf.RoboticsToUnity(v);
            Apply(Transpose(LidarTFLines), v) == [r.x, r.y, r.z, 1.0]
  {
    var p := Apply(Transpose(LidarTFLines), v);
    assert p[0] == -v.y && p[1] == v.z && p[2] == v.x && p[3] == 1.0;
  }

  // ---- Publishing ----

  datatype Format = PCL12 | PCL24 | PCL48

  /** The format whose data a scan leaves in `PointcloudData`: the last
      enabled one in the order the script writes them. */
  function LastEnabled(pcl12: bool, pcl24: bool, pcl48: bool): (f: Option<Format>)
    ensures f == None <==> !pcl12 && !pcl24 && !pcl48
    ensures f == Some(PCL48) <==> pcl48
    ensures f == Some(PCL24) <==> pcl24 && !pcl48
    ensures f == Some(PCL12) <==> pcl12 && !pcl24 && !pcl48
  {
    if pcl48 then Some(PCL48) else if pcl24 then Some(PCL24) else if pcl12 then Some(PCL12) else None
  }

  /** `OnNewLidarData`'s publishing part: each enabled format overwrites
      `PointcloudData` in turn, PCL12 with packed hit points and PCL24
      and PCL48 with the raw buffers read from the plugin. */
  method Publish(pcl12: bool, pcl24: bool, pcl48: bool, hits: seq<Tf.Vec3>, raw24: seq<byte>, raw48: seq<byte>,
                 current: seq<byte>, encode: real -> Word) returns (data: seq<byte>)
    ensures LastEnabled(pcl12, pcl24, pcl48) == None ==> data == current
    ensures LastEnabled(pcl12, pcl24, pcl48) == Some(PCL12) ==>
              data == Packed(hits, encode) && |data| == VectorSize * |hits|
    ensures LastEnabled(pcl12, pcl24, pcl48) == Some(PCL24) ==> data == raw24
    ensures LastEnabled(pcl12, pcl24, pcl48) == Some(PCL48) ==> data == raw48
  {
    data := current;
    if pcl12 {
      data := ConvertVector3ArrayToByteArray(hits, encode);
    }
    if pcl24 {
      data := raw24;
    }
    if pcl48 {
      data := raw48;
    }
  }

  /** The terrain meshes are switched off, all of them, when there is at
      least one and the first is still on; otherwise they are left alone. */
  function DisableTerrain(enabled: seq<bool>): (e: seq<bool>)
    ensures |e| == |enabled|
    ensures |enabled| > 0 && enabled[0] ==> forall i :: 0 <= i < |e| ==> !e[i]
    ensures !(|enabled| > 0 && enabled[0]) ==> e == enabled
  {
    if |enabled| != 0 && enabled[0] then seq(|enabled|, i => false) else enabled
  }

  /** After the first scan the terrain stays as the first scan left it. */
  lemma DisableTerrainIdempotent(enabled: seq<bool>)
    ensures DisableTerrain(DisableTerrain(enabled)) == DisableTerrain(enabled)
  {
  }
}

=== FILE: lighting.dfy ===
/** The lighting state machine of `VehicleLighting.cs`: light flags set by
    keys (manual driving), by the headlight and indicator states
    (autonomous driving) and by the rounded forward velocity (brake and
    reverse lights); then the lamp states the flags render to, with the
    half-second blink timer of the turn indicators.

    Materials and `Light` components are replaced by lamp states: a lamp is
    lit or not, and the tail lamp has a mode and an intensity. The left and
    right lamps of the head and tail clusters always match, so one value
    stands for both sides. */
module Lighting {

  /** The keys pressed this frame: K low beam, I high beam, J left
      indicator, L right indicator, M hazard. */
  datatype Keys = Keys(k: bool, i: bool, j: bool, l: bool, m: bool)

  datatype Flags = Flags(
    lowBeam: bool,
    highBeam: bool,
    left: bool,
    right: bool,
    hazard: bool,
    taillights: bool,
    reverse: bool)

  /** At most one headlight beam and at most one indicator mode. */
  predicate Exclusive(f: Flags)
  {
    && !(f.lowBeam && f.highBeam)
    && (f.left ==> !f.right && !f.hazard)
    && (f.right ==> !f.hazard)
  }

  /** Manual mode: each key clears the other flags of its group and toggles
      its own, in the order K, I, J, L, M. */
  function ManualKeys(f: Flags, keys: Keys): (f': Flags)
    ensures !keys.k && !keys.i ==> f'.lowBeam == f.lowBeam && f'.highBeam == f.highBeam
    ensures keys.k && !keys.i ==> f'.lowBeam == !f.lowBeam && !f'.highBeam
    ensures keys.i && !keys.k ==> f'.highBeam == !f.highBeam && !f'.lowBeam
    ensures keys.k && keys.i ==> f'.highBeam && !f'.lowBeam
    ensures !keys.j && !keys.l && !keys.m ==>
              f'.left == f.left && f'.right == f.right && f'.hazard == f.hazard
    ensures keys.j && !keys.l && !keys.m ==> f'.left == !f.left && !f'.right && !f'.hazard
    ensures keys.l && !keys.m ==> f'.right == (keys.j || !f.right) && !f'.left && !f'.hazard
    ensures keys.m ==> f'.hazard == (keys.j || keys.l || !f.hazard) && !f'.left && !f'.right
    ensures f'.taillights == f.taillights && f'.reverse == f.reverse
    ensures Exclusive(f) ==> Exclusive(f')
  {
    var f1 := if keys.k then f.(highBeam := false, lowBeam := !f.lowBeam) else f;
    var f2 := if keys.i then f1.(lowBeam := false, highBeam := !f1.highBeam) else f1;
    var f3 := if keys.j then f2.(right := false, hazard := false, left := !f2.left) else f2;
    var f4 := if keys.l then f3.(left := false, hazard := false, right := !f3.right) else f3;
    if keys.m then f4.(left := false, right := false, hazard := !f4.hazard) else f4
  }

  /** Autonomous mode: headlight state 0, 1, 2 selects off, low or high
      beam and indicator state 0..3 selects none, left, right or hazard;
      any other value leaves its group as it was. */
  function Autonomous(f: Flags, headlightState: int, indicatorState: int): (f': Flags)
    ensures headlightState == 0 ==> !f'.lowBeam && !f'.highBeam
    ensures headlightState == 1 ==> f'.lowBeam && !f'.highBeam
    ensures headlightState == 2 ==> !f'.lowBeam && f'.highBeam
    ensures !(0 <= headlightState <= 2) ==> f'.lowBeam == f.lowBeam && f'.highBeam == f.highBeam
    ensures indicatorState == 0 ==> !f'.left && !f'.right && !f'.hazard
    ensures indicatorState == 1 ==> f'.left && !f'.right && !f'.hazard
    ensures indicatorState == 2 ==> !f'.left && f'.right && !f'.hazard
    ensures indicatorState == 3 ==> !f'.left && !f'.right && f'.hazard
    ensures !(0 <= indicatorState <= 3) ==>
              f'.left == f.left && f'.right == f.right && f'.hazard == f.hazard
    ensures f'.taillights == f.taillights && f'.reverse == f.reverse
    ensures Exclusive(f) ==> Exclusive(f')
  {
    var h :=
      if headlightState == 0 then f.(lowBeam := false, highBeam := false)
      else if headlightState == 1 then f.(highBeam := false, lowBeam := true)
      else if headlightState == 2 then f.(lowBeam := false, highBeam := true)
      else f;
    if indicatorState == 0 then h.(right := false, hazard := false, left := false)
    else if indicatorState == 1 then h.(right := false, hazard := false, left := true)
    else if indicatorState == 2 then h.(left := false, hazard := false, right := true)
    else if indicatorState == 3 then h.(left := false, right := false, hazard := true)
    else h
  }

  /** Automatic lights: the forward velocity rounded to two decimals is the
      recorded one while the data recorder is saving and the live one
      otherwise; the brake lights are on when it is zero and the reverse
      lights when it is negative. */
  function Automatic(f: Flags, saving: bool, recordedRounded: real, liveRounded: real): (f': Flags)
    ensures var v := if saving then recordedRounded else liveRounded;
            (f'.taillights <==> v == 0.0) && (f'.reverse <==> v < 0.0)
    ensures f' == f.(taillights := f'.taillights, reverse := f'.reverse)
  {
    var v := if saving then recordedRounded else liveRounded;
    f.(taillights := v == 0.0, reverse := v < 0.0)
  }

  /** Brake and reverse lights are never on together. */
  lemma BrakeAndReverseExclusive(f: Flags, saving: bool, recordedRounded: real, liveRounded: real)
    ensures var f' := Automatic(f, saving, recordedRounded, liveRounded);
            !(f'.taillights && f'.reverse)
  {
  }

  /** The flag part of `Update`: key handling in manual mode (0), state
      handling in autonomous mode (1), neither in any other mode, and then
      the automatic lights. */
  function UpdateFlags(f: Flags, drivingMode: int, keys: Keys, headlightState: int, indicatorState: int,
                       saving: bool, recordedRounded: real, liveRounded: real): (f': Flags)
    ensures Exclusive(f) ==> Exclusive(f')
    ensures drivingMode != 0 && drivingMode != 1 ==>
              f' == f.(taillights := f'.taillights, reverse := f'.reverse)
    ensures !(f'.taillights && f'.reverse)
  {
    var g :=
      if drivingMode == 0 then ManualKeys(f, keys)
      else if drivingMode == 1 then Autonomous(f, headlightState, indicatorState)
      else f;
    Automatic(g, saving, recordedRounded, liveRounded)
  }

  /** Manual key handling over a sequence of frames. */
  function ManualRun(f: Flags, frames: seq<Keys>): Flags
    decreases |frames|
  {
    if |frames| == 0 then f else ManualKeys(ManualRun(f, frames[..|frames| - 1]), frames[|frames| - 1])
  }

  /** Any sequence of key presses from exclusive flags keeps at most one
      beam and at most one indicator mode on. */
  lemma {:induction false} ManualRunExclusive(f: Flags, frames: seq<Keys>)
    requires Exclusive(f)
    ensures Exclusive(ManualRun(f, frames))
  {
    if |frames| > 0 {
      ManualRunExclusive(f, frames[..|frames| - 1]);
    }
  }

  // ---- Lamp states ----

  /** Head lamps: lamp 1 is the low-beam lamp, lamp 2 the high-beam one. */
  datatype HeadLamps = HeadLamps(lamp1: bool, lamp2: bool)

  function HeadLampState(f: Flags): (h: HeadLamps)
    ensures h.lamp1 <==> f.lowBeam || f.highBeam
    ensures h.lamp2 <==> f.highBeam && !f.lowBeam
    ensures h.lamp2 ==> h.lamp1
  {
    if f.lowBeam then HeadLamps(true, false)
    else if f.highBeam then HeadLamps(true, true)
    else HeadLamps(false, false)
  }

  datatype TailMode = TailOn | TailPartiallyOn | TailOff

  /** The tail cluster: the material mode and the point light. */
  datatype TailLamp = TailLamp(mode: TailMode, enabled: bool, intensity: real)

  /** Full intensity while braking, half intensity with a headlight on,
      otherwise off with the point light's intensity left as it was. */
  function TailLampState(f: Flags, fullIntensity: real, prev: TailLamp): (t: TailLamp)
    ensures t.mode == TailOn <==> f.taillights
    ensures t.mode == TailPartiallyOn <==> !f.taillights && (f.lowBeam || f.highBeam)
    ensures t.enabled <==> t.mode != TailOff
    ensures t.mode == TailOn ==> t.intensity == fullIntensity
    ensures t.mode == TailPartiallyOn ==> t.intensity * 2.0 == fullIntensity
    ensures t.mode == TailOff ==> t.intensity == prev.intensity
  {
    if f.taillights then TailLamp(TailOn, true, fullIntensity)
    else if f.lowBeam || f.highBeam then TailLamp(TailPartiallyOn, true, fullIntensity / 2.0)
    else TailLamp(TailOff, false, prev.intensity)
  }

  /** The four turn-indicator lamps. */
  datatype TurnLamps = TurnLamps(frontLeft: bool, frontRight: bool, rearLeft: bool, rearRight: bool)

  const AllOff := TurnLamps(false, false, false, false)

  predicate Blinking(f: Flags)
  {
    f.left || f.right || f.hazard
  }

  /** The lamps lit in the on-phase: the left pair, the right pair or all
      four, the left indicator taking precedence over the right and the
      right over the hazard lights. */
  function Pattern(f: Flags): (p: TurnLamps)
    requires Blinking(f)
    ensures p.frontLeft == p.rearLeft && p.frontRight == p.rearRight
    ensures p.frontLeft <==> f.left || (!f.right && f.hazard)
    ensures p.frontRight <==> !f.left && (f.right || f.hazard)
  {
    if f.left then TurnLamps(true, false, true, false)
    else if f.right then TurnLamps(false, true, false, true)
    else TurnLamps(true, true, true, true)
  }

  datatype Blink = Blink(timer: real, lamps: TurnLamps)

  /** One frame of the blink timer: while an indicator mode is on, the
      timer advances by `dt`; from half a second the pattern is lit, from
      one second everything goes off and the timer restarts, and before
      half a second the lamps keep their state. With no indicator mode
      every lamp is off and the timer is left alone. */
  function BlinkStep(f: Flags, timer: real, dt: real, lamps: TurnLamps): (b: Blink)
    ensures !Blinking(f) ==> b == Blink(timer, AllOff)
    ensures Blinking(f) ==>
              var t := timer + dt;
              && (t < 0.5 ==> b == Blink(t, lamps))
              && (0.5 <= t < 1.0 ==> b == Blink(t, Pattern(f)))
              && (1.0 <= t ==> b == Blink(0.0, AllOff))
    ensures Blinking(f) ==> b.timer < 1.0
    ensures 0.0 <= timer && 0.0 <= dt ==> 0.0 <= b.timer
  {
    if Blinking(f) then
      var t := timer + dt;
      var lit := if t >= 0.5 then Pattern(f) else lamps;
      if t >= 1.0 then Blink(0.0, AllOff) else Blink(t, lit)
    else Blink(timer, AllOff)
  }

  /** Swap left and right. */
  function Mirror(p: TurnLamps): TurnLamps
  {
    TurnLamps(p.frontRight, p.frontLeft, p.rearRight, p.rearLeft)
  }

  /** The right indicator blinks as the mirror image of the left one, and
      the hazard lights light both patterns at once. */
  lemma BlinkSymmetry(f: Flags, timer: real, dt: real, lamps: TurnLamps)
    requires f.left
    ensures var g := f.(left := false, right := true);
            BlinkStep(g, timer, dt, Mirror(lamps)) == Blink(BlinkStep(f, timer, dt, lamps).timer,
                                                             Mirror(BlinkStep(f, timer, dt, lamps).lamps))
    ensures var h := Flags(false, false, false, false, true, false, false);
            var p := Pattern(f);
            var q := Pattern(f.(left := false, right := true));
            Pattern(h) == TurnLamps(p.frontLeft || q.frontLeft, p.frontRight || q.frontRight,
                                    p.rearLeft || q.rearLeft, p.rearRight || q.rearRight)
  {
  }

  /** Many frames of the blink timer with the same indicator mode. */
  function BlinkRun(f: Flags, timer: real, dts: seq<real>, lamps: TurnLamps): Blink
    decreases |dts|
  {
    if |dts| == 0 then Blink(timer, lamps)
    else
      var b := BlinkRun(f, timer, dts[..|dts| - 1], lamps);
      BlinkStep(f, b.timer, dts[|dts| - 1], b.lamps)
  }

  /** However many frames pass with non-negative frame times, the timer
      stays in [0, 1) and only the mode's pattern or nothing is ever lit. */
  lemma {:induction false} BlinkRunInvariant(f: Flags, timer: real, dts: seq<real>, lamps: TurnLamps)
    requires Blinking(f) && 0.0 <= timer < 1.0
    requires lamps == AllOff || lamps == Pattern(f)
    requires forall k :: 0 <= k < |dts| ==> 0.0 <= dts[k]
    ensures var b := BlinkRun(f, timer, dts, lamps);
            0.0 <= b.timer < 1.0 && (b.lamps == AllOff || b.lamps == Pattern(f))
  {
    if |dts| > 0 {
      BlinkRunInvariant(f, timer, dts[..|dts| - 1], lamps);
    }
  }

  /** Every lamp the script renders. */
  datatype Lamps = Lamps(head: HeadLamps, tail: TailLamp, turn: TurnLamps, reverse: bool, timer: real)

  /** The rendering part of `Update`, from the flags just computed. */
  function Render(f: Flags, fullIntensity: real, dt: real, prev: Lamps): (l: Lamps)
    ensures l.head == HeadLampState(f) && l.tail == TailLampState(f, fullIntensity, prev.tail)
    ensures var b := BlinkStep(f, prev.timer, dt, prev.turn); l.turn == b.lamps && l.timer == b.timer
    ensures l.reverse <==> f.reverse
  {
    var b := BlinkStep(f, prev.timer, dt, prev.turn);
    Lamps(HeadLampState(f), TailLampState(f, fullIntensity, prev.tail), b.lamps, f.reverse, b.timer)
  }

  /** The timer's invariant across frames, whatever the flags do between
      them: a lit indicator lamp means at least half a second has passed
      on the timer. It holds at start-up, with every lamp off. */
  lemma BlinkLitInvariant(f: Flags, timer: real, dt: real, lamps: TurnLamps)
    requires 0.0 <= dt
    requires lamps != AllOff ==> 0.5 <= timer
    ensures var b := BlinkStep(f, timer, dt, lamps);
            b.lamps != AllOff ==> 0.5 <= b.timer
  {
  }

  /** With exclusive flags, a lit high-beam lamp means high beam, the tail
      lamp is never fully on while reversing, and a blinking lamp is on
      only on the active indicator's side. Every frame the script reaches
      meets the second requirement: by `BlinkLitInvariant`, lamps lit from
      an earlier frame mean the timer is past half a second, so this frame
      relights the pattern of the current mode, even after a switch from
      one indicator to the other. */
  lemma RenderConsistent(f: Flags, fullIntensity: real, dt: real, prev: Lamps)
    requires Exclusive(f) && !(f.taillights && f.reverse)
    requires prev.turn == AllOff || (Blinking(f) && prev.turn == Pattern(f)) || 0.5 <= prev.timer + dt
    ensures var l := Render(f, fullIntensity, dt, prev);
            && (l.head.lamp2 <==> f.highBeam)
            && !(l.tail.mode == TailOn && l.reverse)
            && (f.left ==> !l.turn.frontRight && !l.turn.rearRight)
            && (f.right ==> !l.turn.frontLeft && !l.turn.rearLeft)
  {
  }
}

=== FILE: pid.dfy ===
/** The PID controller of `PIDController.cs`, whose integral term is the sum
    of a bounded first-in first-out window of recent errors ("jacketing"
    against integral wind-up). */
module Pid {
  import opened Common

  /** Gains, saturation constant (window capacity) and controller memory. */
  datatype Pid = Pid(
    kP: real, kI: real, kD: real, kS: int,
    errInt: real,          // integral of the errors in the window
    errDif: real,          // last error difference
    errPrev: real,         // previous error
    tPrev: real,           // previous timestamp
    errHist: seq<real>)    // error window, oldest first

  /** `new Queue<float>(kS)` rejects a negative capacity. */
  datatype PidError = NegativeCapacity(kS: int)

  datatype ControlOut = ControlOut(u: real, pid: Pid)

  /** Sum of a sequence of errors. */
  function Sum(s: seq<real>): real
  {
    if |s| == 0 then 0.0 else Sum(s[..|s| - 1]) + s[|s| - 1]
  }

  /** Appending one error adds it to the sum. */
  lemma SumAppend(s: seq<real>, x: real)
    ensures Sum(s + [x]) == Sum(s) + x
  {
    assert (s + [x])[..|s|] == s;
  }

  /** Dropping the oldest error subtracts it from the sum. */
  lemma {:induction false} SumDropFirst(s: seq<real>)
    requires |s| > 0
    ensures Sum(s) == s[0] + Sum(s[1..])
  {
    if |s| > 1 {
      SumDropFirst(s[..|s| - 1]);
      assert s[..|s| - 1][1..] == s[1..][..|s| - 2];
      assert s[..|s| - 1][0] == s[0];
    } else {
      assert s[1..] == [];
    }
  }

  /** The controller's data-structure invariant: the window holds at most
      `kS` errors and the integral is their sum. */
  predicate Inv(p: Pid)
  {
    && 0 <= p.kS
    && |p.errHist| <= p.kS
    && p.errInt == Sum(p.errHist)
  }

  /** The constructor. */
  function New(kP: real, kI: real, kD: real, kS: int): (r: Result<Pid, PidError>)
    ensures kS < 0 <==> r.Err?
    ensures r.Ok? ==> Inv(r.value) && r.value.errHist == []
    ensures r.Ok? ==> r.value.errInt == 0.0 && r.value.errDif == 0.0 && r.value.errPrev == 0.0 && r.value.tPrev == 0.0
    ensures r.Ok? ==> r.value.kP == kP && r.value.kI == kI && r.value.kD == kD && r.value.kS == kS
  {
    if kS < 0 then Err(NegativeCapacity(kS))
    else Ok(Pid(kP, kI, kD, kS, 0.0, 0.0, 0.0, 0.0, []))
  }

  /** The most recent `k` elements of `s` (all of them if fewer). */
  function Last(s: seq<real>, k: nat): (r: seq<real>)
    ensures |r| <= k && |r| <= |s|
    ensures |s| <= k ==> r == s
  {
    if |s| <= k then s else s[|s| - k..]
  }

  /** The error window after one push: enqueue the error, and when the
      window then holds more than `kS` errors dequeue the oldest one and
      take it back out of the integral. */
  datatype Window = Window(hist: seq<real>, integral: real)

  function Push(hist: seq<real>, integral: real, err: real, kS: int): (w: Window)
    ensures 0 <= kS && |hist| <= kS && integral == Sum(hist) ==>
              && w.hist == Last(hist + [err], kS)
              && w.integral == Sum(w.hist)
  {
    var pushed := hist + [err];
    if |pushed| > kS then
      SumAppend(hist, err);
      SumDropFirst(pushed);
      Window(pushed[1..], integral + err - pushed[0])
    else
      SumAppend(hist, err);
      Window(pushed, integral + err)
  }

  /** `Control(err, t)`: on a positive timestep, push the error into the
      window and return the PID law; otherwise return 0 and leave every
      field unchanged. */
  function Control(p: Pid, err: real, t: real): (o: ControlOut)
    ensures t - p.tPrev <= 0.0 ==> o.u == 0.0 && o.pid == p
    ensures t - p.tPrev > 0.0 ==>
              var dt := t - p.tPrev;
              && o.u == p.kP * err + p.kI * o.pid.errInt * dt + p.kD * (err - p.errPrev) / dt
              && o.pid.errPrev == err && o.pid.tPrev == t && o.pid.errDif == err - p.errPrev
    ensures o.pid.kP == p.kP && o.pid.kI == p.kI && o.pid.kD == p.kD && o.pid.kS == p.kS
    ensures Inv(p) ==> Inv(o.pid)
    ensures Inv(p) && t - p.tPrev > 0.0 ==> o.pid.errHist == Last(p.errHist + [err], p.kS)
  {
    var dt := t - p.tPrev;
    if dt > 0.0 then
      var w := Push(p.errHist, p.errInt, err, p.kS);
      var u := p.kP * err + p.kI * w.integral * dt + p.kD * (err - p.errPrev) / dt;
      ControlOut(u, p.(errInt := w.integral, errDif := err - p.errPrev, errPrev := err, tPrev := t, errHist := w.hist))
    else
      ControlOut(0.0, p)
  }

  /** `Reset`: the state the constructor builds, with the same gains. */
  function Reset(p: Pid): (r: Pid)
    ensures 0 <= p.kS ==> New(p.kP, p.kI, p.kD, p.kS) == Ok(r)
    ensures r.kP == p.kP && r.kI == p.kI && r.kD == p.kD && r.kS == p.kS
  {
    p.(errInt := 0.0, errDif := 0.0, errPrev := 0.0, tPrev := 0.0, errHist := [])
  }

  /** Feed a sequence of (error, timestamp) samples to `Control`. */
  function ControlAll(p: Pid, samples: seq<(real, real)>): Pid
    decreases |samples|
  {
    if |samples| == 0 then p
    else Control(ControlAll(p, samples[..|samples| - 1]), samples[|samples| - 1].0, samples[|samples| - 1].1).pid
  }

  function Errors(samples: seq<(real, real)>): (r: seq<real>)
    ensures |r| == |samples|
    ensures forall i :: 0 <= i < |samples| ==> r[i] == samples[i].0
  {
    seq(|samples|, i requires 0 <= i < |samples| => samples[i].0)
  }

  /** Timestamps strictly increasing and all after `t0`. */
  predicate Increasing(samples: seq<(real, real)>, t0: real)
  {
    forall i :: 0 <= i < |samples| ==> t0 < samples[i].1 && (i > 0 ==> samples[i - 1].1 < samples[i].1)
  }

  /** Dropping the newest sample keeps the timestamps increasing. */
  lemma IncreasingPrefix(samples: seq<(real, real)>, t0: real)
    requires |samples| > 0 && Increasing(samples, t0)
    ensures Increasing(samples[..|samples| - 1], t0)
  {
    var init := samples[..|samples| - 1];
    forall i | 0 <= i < |init|
      ensures t0 < init[i].1 && (i > 0 ==> init[i - 1].1 < init[i].1)
    {
      assert init[i] == samples[i];
    }
  }

  /** The errors of a run are those of its prefix followed by the newest. */
  lemma ErrorsAppend(samples: seq<(real, real)>)
    requires |samples| > 0
    ensures Errors(samples) == Errors(samples[..|samples| - 1]) + [samples[|samples| - 1].0]
  {
  }

  lemma LastPush(s: seq<real>, x: real, k: nat)
    ensures Last(Last(s, k) + [x], k) == Last(s + [x], k)
  {
  }

  /** The rolling window: from a freshly built or reset controller, after
      any run of samples with increasing timestamps, the window holds the
      most recent `kS` errors in arrival order and the integral is their sum. */
  lemma {:induction false} WindowIsRecentErrors(p: Pid, samples: seq<(real, real)>)
    requires Inv(p) && p.errHist == [] && p.tPrev == 0.0
    requires Increasing(samples, 0.0)
    ensures ControlAll(p, samples).errHist == Last(Errors(samples), p.kS)
    ensures ControlAll(p, samples).errInt == Sum(Last(Errors(samples), p.kS))
    ensures |samples| > 0 ==> ControlAll(p, samples).tPrev == samples[|samples| - 1].1
    ensures ControlAll(p, samples).kS == p.kS
    ensures Inv(ControlAll(p, samples))
  {
    if |samples| > 0 {
      var init := samples[..|samples| - 1];
      var last := samples[|samples| - 1];
      IncreasingPrefix(samples, 0.0);
      WindowIsRecentErrors(p, init);
      var q := ControlAll(p, init);
      assert q.tPrev < last.1 by {
        if |init| > 0 {
          assert q.tPrev == samples[|samples| - 2].1;
        }
      }
      var o := Control(q, last.0, last.1);
      assert ControlAll(p, samples) == o.pid;
      assert o.pid.errHist == Last(q.errHist + [last.0], p.kS);
      ErrorsAppend(samples);
      LastPush(Errors(init), last.0, p.kS);
    }
  }
}

=== FILE: reset_manager.dfy ===
/** The soft reset of `ResetManager.cs`: `Start` records each vehicle's pose,
    wheel-encoder revolutions and lap-timer counters, and `Update` either
    puts all of them back (when the reset flag is raised) or lets the
    vehicles move again.

    Each vehicle's transform, rigid body, co-simulation manager, encoders and
    lap timer are the entries at one index of the script's parallel arrays;
    here they are one record, so the arrays have one length by
    construction. */
module ResetManager {
  import opened Common
  import LapTimer

  /** A transform's position and rotation quaternion. */
  datatype Pose = Pose(x: real, y: real, z: real, qx: real, qy: real, qz: real, qw: real)

  /** Everything of one vehicle that the script reads or writes. */
  datatype Rig = Rig(
    pose: Pose,
    kinematic: bool,
    coSimEnabled: bool,
    leftRevolutions: real,
    rightRevolutions: real,
    lap: LapTimer.Lap)

  /** The initial state recorded for one vehicle: pose, encoders and the
      eight lap-timer fields (not the timer's two edge flags). */
  datatype Snapshot = Snapshot(
    pose: Pose,
    leftRevolutions: real,
    rightRevolutions: real,
    lapCount: int,
    lapTime: real,
    lastLapTime: Float,
    bestLapTime: Float,
    currentCheckpoint: int,
    previousCheckpoint: int,
    checkpointCount: int,
    collisionCount: int)

  /** The body of `Start`'s loop for one vehicle. */
  function Capture(r: Rig): (s: Snapshot)
    ensures s.pose == r.pose
    ensures s.leftRevolutions == r.leftRevolutions && s.rightRevolutions == r.rightRevolutions
    ensures s.lapCount == r.lap.lapCount && s.lapTime == r.lap.lapTime
    ensures s.lastLapTime == r.lap.lastLapTime && s.bestLapTime == r.lap.bestLapTime
    ensures s.currentCheckpoint == r.lap.currentCheckpoint && s.previousCheckpoint == r.lap.previousCheckpoint
    ensures s.checkpointCount == r.lap.checkpointCount && s.collisionCount == r.lap.collisionCount
  {
    Snapshot(r.pose, r.leftRevolutions, r.rightRevolutions,
             r.lap.lapCount, r.lap.lapTime, r.lap.lastLapTime, r.lap.bestLapTime,
             r.lap.currentCheckpoint, r.lap.previousCheckpoint, r.lap.checkpointCount, r.lap.collisionCount)
  }

  /** `Start`: one snapshot per vehicle, in order. */
  function Start(rigs: seq<Rig>): (snaps: seq<Snapshot>)
    ensures |snaps| == |rigs|
    ensures forall i :: 0 <= i < |rigs| ==> snaps[i] == Capture(rigs[i])
  {
    seq(|rigs|, i requires 0 <= i < |rigs| => Capture(rigs[i]))
  }

  /** The body of `Update`'s reset loop for one vehicle: stop co-simulation,
      freeze the body, and write back the recorded pose, encoders and lap
      fields. The lap timer's edge flags are left as they are. */
  function Restore(r: Rig, s: Snapshot): (r': Rig)
    ensures !r'.coSimEnabled && r'.kinematic
    ensures Capture(r') == s
    ensures r'.lap.finishLineFlag == r.lap.finishLineFlag && r'.lap.checkpointFlag == r.lap.checkpointFlag
  {
    Rig(s.pose, true, false, s.leftRevolutions, s.rightRevolutions,
        r.lap.(lapCount := s.lapCount, lapTime := s.lapTime, lastLapTime := s.lastLapTime,
               bestLapTime := s.bestLapTime, currentCheckpoint := s.currentCheckpoint,
               previousCheckpoint := s.previousCheckpoint, checkpointCount := s.checkpointCount,
               collisionCount := s.collisionCount))
  }

  datatype Manager = Manager(resetFlag: bool, rigs: seq<Rig>)

  /** `Update`: with the flag raised, restore every vehicle and lower the
      flag; otherwise only make every body dynamic again. */
  function Update(m: Manager, snaps: seq<Snapshot>): (m': Manager)
    requires |snaps| == |m.rigs|
    ensures |m'.rigs| == |m.rigs|
    ensures !m'.resetFlag
    ensures m.resetFlag ==> forall i :: 0 <= i < |m.rigs| ==> m'.rigs[i] == Restore(m.rigs[i], snaps[i])
    ensures !m.resetFlag ==> forall i :: 0 <= i < |m.rigs| ==> m'.rigs[i] == m.rigs[i].(kinematic := false)
  {
    if m.resetFlag then
      Manager(false, seq(|m.rigs|, i requires 0 <= i < |m.rigs| => Restore(m.rigs[i], snaps[i])))
    else
      Manager(false, seq(|m.rigs|, i requires 0 <= i < |m.rigs| => m.rigs[i].(kinematic := false)))
  }

  /** After a reset, every vehicle's recorded state is its snapshot again. */
  lemma ResetRestoresSnapshot(m: Manager, snaps: seq<Snapshot>)
    requires |snaps| == |m.rigs| && m.resetFlag
    ensures Start(Update(m, snaps).rigs) == snaps
  {
    var m' := Update(m, snaps);
    assert forall i :: 0 <= i < |snaps| ==> Start(m'.rigs)[i] == Capture(Restore(m.rigs[i], snaps[i]));
  }

  /** Resetting right after `Start` changes nothing but the co-simulation
      and kinematic switches. */
  lemma ResetAfterStartKeepsState(m: Manager)
    requires m.resetFlag
    ensures var m' := Update(m, Start(m.rigs));
            forall i :: 0 <= i < |m.rigs| ==>
              m'.rigs[i] == m.rigs[i].(kinematic := true, coSimEnabled := false)
  {
  }

  /** A second reset right after the first leaves the recorded state as the
      first one left it. */
  lemma ResetIdempotent(m: Manager, snaps: seq<Snapshot>)
    requires |snaps| == |m.rigs| && m.resetFlag
    ensures var once := Update(m, snaps);
            Update(once.(resetFlag := true), snaps) == once
  {
    var once := Update(m, snaps);
    var twice := Update(once.(resetFlag := true), snaps);
    forall i | 0 <= i < |m.rigs|
      ensures twice.rigs[i] == once.rigs[i]
    {
      RestoreIdempotent(m.rigs[i], snaps[i]);
    }
  }

  lemma RestoreIdempotent(r: Rig, s: Snapshot)
    ensures Restore(Restore(r, s), s) == Restore(r, s)
  {
  }
}

=== FILE: tf.dfy ===
/** The frame conversion of `TF.cs`: the position and the Euler angles of a
    child transform relative to a parent, turned from Unity's axes (x right,
    y up, z forward, left-handed, degrees) into the robotics convention
    (x forward, y left, z up, radians). */
module Tf {
  import opened Common

  datatype Vec3 = Vec3(x: real, y: real, z: real)

  function Sub(a: Vec3, b: Vec3): Vec3
  {
    Vec3(a.x - b.x, a.y - b.y, a.z - b.z)
  }

  /** Unity (x, y, z) to robotics (z, -x, y). */
  function UnityToRobotics(v: Vec3): (r: Vec3)
    ensures RoboticsToUnity(r) == v
  {
    Vec3(v.z, -v.x, v.y)
  }

  function RoboticsToUnity(r: Vec3): Vec3
  {
    Vec3(-r.y, r.z, r.x)
  }

  /** The conversion is a bijection that keeps lengths and reverses
      handedness (its determinant is -1): it maps Unity's left-handed
      axes to a right-handed frame. */
  lemma UnityToRoboticsIsReflection(a: Vec3, b: Vec3)
    ensures UnityToRobotics(RoboticsToUnity(a)) == a
    ensures var r := UnityToRobotics(a);
            r.x * r.x + r.y * r.y + r.z * r.z == a.x * a.x + a.y * a.y + a.z * a.z
    ensures Det(UnityToRobotics(Vec3(1.0, 0.0, 0.0)), UnityToRobotics(Vec3(0.0, 1.0, 0.0)),
                UnityToRobotics(Vec3(0.0, 0.0, 1.0))) == -1.0
  {
  }

  /** Determinant of the matrix with columns `a`, `b`, `c`. */
  function Det(a: Vec3, b: Vec3, c: Vec3): real
  {
    a.x * (b.y * c.z - c.y * b.z) - b.x * (a.y * c.z - c.y * a.z) + c.x * (a.y * b.z - b.y * a.z)
  }

  /** The three lines writing `Position`, from the two local positions. */
  function Position(child: Vec3, parent: Vec3): (p: seq<real>)
    ensures |p| == 3
  {
    [child.z - parent.z, -child.x + parent.x, child.y - parent.y]
  }

  /** The relative position is the Unity offset from parent to child, in
      robotics axes. */
  lemma PositionIsConverted(child: Vec3, parent: Vec3)
    ensures var r := UnityToRobotics(Sub(child, parent));
            Position(child, parent) == [r.x, r.y, r.z]
  {
  }

  /** The relative position is zero exactly when the two positions
      coincide. */
  lemma PositionZero(child: Vec3, parent: Vec3)
    ensures Position(child, parent) == [0.0, 0.0, 0.0] <==> child == parent
  {
    var p := Position(child, parent);
    if p == [0.0, 0.0, 0.0] {
      assert p[0] == 0.0 && p[1] == 0.0 && p[2] == 0.0;
    }
  }

  /** Swapping child and parent negates every component. */
  lemma PositionSwap(child: Vec3, parent: Vec3)
    ensures forall k :: 0 <= k < 3 ==> Position(parent, child)[k] == -Position(child, parent)[k]
  {
  }

  /** Moving both transforms by the same offset changes nothing. */
  lemma PositionTranslationInvariant(child: Vec3, parent: Vec3, offset: Vec3)
    ensures Position(Add(child, offset), Add(parent, offset)) == Position(child, parent)
  {
  }

  function Add(a: Vec3, b: Vec3): Vec3
  {
    Vec3(a.x + b.x, a.y + b.y, a.z + b.z)
  }

  /** One Euler angle difference (degrees) to radians: `mirrored` angles
      (roll about Unity z, yaw about Unity y) turn the other way in the
      robotics frame. The factor is `Mathf.PI / 180` in single precision.
      A difference that rounds to zero at two decimals is stored as it is,
      without conversion; `round2` is `Math.Round(_, 2)`. */
  function Angle(d: real, mirrored: bool, round2: real -> real): (a: real)
    ensures round2(d) == 0.0 ==> a == d
    ensures round2(d) != 0.0 && mirrored ==> a == (360.0 - d) * Deg2Rad
    ensures round2(d) != 0.0 && !mirrored ==> a == d * Deg2Rad
  {
    if round2(d) == 0.0 then d
    else if mirrored then (360.0 - d) * Deg2Rad
    else d * Deg2Rad
  }

  /** The lines writing `Orientation`: roll from z, pitch from x and yaw
      from y of the Euler-angle difference. */
  function Orientation(childEuler: Vec3, parentEuler: Vec3, round2: real -> real): (o: seq<real>)
    ensures |o| == 3
    ensures var d := Sub(childEuler, parentEuler);
            && o[0] == Angle(d.z, true, round2)
            && o[1] == Angle(d.x, false, round2)
            && o[2] == Angle(d.y, true, round2)
  {
    var d := Sub(childEuler, parentEuler);
    [Angle(d.z, true, round2), Angle(d.x, false, round2), Angle(d.y, true, round2)]
  }

  /** The two published arrays. */
  datatype Frame = Frame(position: seq<real>, orientation: seq<real>)

  /** `FixedUpdate`: both arrays are rewritten and keep their length 3. */
  function FixedUpdate(child: Vec3, parent: Vec3, childEuler: Vec3, parentEuler: Vec3,
                       round2: real -> real): (f: Frame)
    ensures |f.position| == 3 && |f.orientation| == 3
    ensures f.position == Position(child, parent)
    ensures f.orientation == Orientation(childEuler, parentEuler, round2)
  {
    Frame(Position(child, parent), Orientation(childEuler, parentEuler, round2))
  }

  /** The conversion does not wrap: a yaw difference of d and of d + 360
      give results 2*pi*(single-precision) apart, not equal ones. */
  lemma AngleDoesNotWrap(d: real, round2: real -> real)
    requires round2(d) != 0.0 && round2(d + 360.0) != 0.0
    ensures Angle(d, true, round2) - Angle(d + 360.0, true, round2) == 360.0 * Deg2Rad
    ensures Angle(d, false, round2) - Angle(d + 360.0, false, round2) == -360.0 * Deg2Rad
  {
  }
}

=== FILE: twist.dfy ===
/** The twist-tracking loop of `TwistController.cs`: two independent PID
    channels, linear velocity driving the throttle and angular velocity
    driving the steering, each writing through the vehicle controller's
    clamping setter. */
module Twist {
  import opened Common
  import Pid
  import VehicleController

  /** Gains and saturation constant of one channel, as set in the inspector. */
  datatype Gains = Gains(kP: real, kI: real, kD: real, kS: int)

  /** One control channel and the values it last computed; `pid` is `None`
      until `Start` builds it, which it does only for an enabled channel. */
  datatype Channel = Channel(
    enable: bool,
    setpoint: real,
    feedback: real,
    error: real,
    control: real,
    pid: Option<Pid.Pid>)

  /** `Start` for one channel: an enabled channel gets a fresh controller
      (and inherits its constructor's rejection of a negative capacity); a
      disabled one gets none. */
  function StartChannel(enable: bool, setpoint: real, g: Gains): (r: Result<Channel, Pid.PidError>)
    ensures r.Err? <==> enable && g.kS < 0
    ensures r.Ok? ==> r.value.enable == enable && r.value.setpoint == setpoint
    ensures r.Ok? ==> (r.value.pid.Some? <==> enable)
    ensures r.Ok? && enable ==> Pid.New(g.kP, g.kI, g.kD, g.kS) == Ok(r.value.pid.value)
    ensures r.Ok? ==> Ready(r.value)
  {
    if !enable then Ok(Channel(false, setpoint, 0.0, 0.0, 0.0, None))
    else
      match Pid.New(g.kP, g.kI, g.kD, g.kS)
      case Err(e) => Err(e)
      case Ok(p) => Ok(Channel(true, setpoint, 0.0, 0.0, 0.0, Some(p)))
  }

  /** An enabled channel has a controller, and that controller keeps its
      invariant. */
  predicate Ready(c: Channel)
  {
    c.enable ==> c.pid.Some? && Pid.Inv(c.pid.value)
  }

  datatype ChannelOut = ChannelOut(channel: Channel, command: Option<real>)

  /** One channel's step at time `now` with measured value `measured`: a
      disabled channel writes nothing; a zero setpoint writes 0 without
      touching the controller; otherwise the clamped controller output on
      the error is written. */
  function Step(c: Channel, measured: real, now: real): (o: ChannelOut)
    requires Ready(c)
    ensures !c.enable ==> o.command == None && o.channel == c
    ensures c.enable && c.setpoint == 0.0 ==> o.command == Some(0.0) && o.channel == c
    ensures c.enable && c.setpoint != 0.0 ==>
              var out := Pid.Control(c.pid.value, c.setpoint - measured, now);
              && o.channel.error == c.setpoint - measured
              && o.channel.feedback == measured
              && o.channel.control == out.u
              && o.channel.pid == Some(out.pid)
              && o.command == Some(Clamp(out.u, -1.0, 1.0))
    ensures o.command.Some? ==> -1.0 <= o.command.value <= 1.0
    ensures o.channel.enable == c.enable && o.channel.setpoint == c.setpoint
    ensures Ready(o.channel)
  {
    if !c.enable then ChannelOut(c, None)
    else if c.setpoint != 0.0 then
      var err := c.setpoint - measured;
      var out := Pid.Control(c.pid.value, err, now);
      ChannelOut(c.(feedback := measured, error := err, control := out.u, pid := Some(out.pid)),
                 Some(Clamp(out.u, -1.0, 1.0)))
    else ChannelOut(c, Some(0.0))
  }

  datatype Twist = Twist(linear: Channel, angular: Channel)

  datatype UpdateOut = UpdateOut(twist: Twist, vehicle: VehicleController.Vehicle)

  /** Write an optional command through the throttle or the steering setter. */
  function Apply(v: VehicleController.Vehicle, command: Option<real>, throttle: bool): VehicleController.Vehicle
  {
    match command
    case None => v
    case Some(x) => if throttle then VehicleController.SetThrottle(v, x) else VehicleController.SetSteering(v, x)
  }

  /** `Update`: run both channels at the same time stamp, the linear one on
      the forward velocity and the angular one on the yaw rate, and write
      their commands to the vehicle's autonomous throttle and steering. */
  function Update(t: Twist, v: VehicleController.Vehicle,
                  linearVelocity: real, angularVelocity: real, now: real): (o: UpdateOut)
    requires Ready(t.linear) && Ready(t.angular)
    ensures !t.linear.enable ==> o.vehicle.autonomousThrottle == v.autonomousThrottle
    ensures !t.angular.enable ==> o.vehicle.autonomousSteering == v.autonomousSteering
    ensures t.linear.enable ==> -1.0 <= o.vehicle.autonomousThrottle <= 1.0
    ensures t.angular.enable ==> -1.0 <= o.vehicle.autonomousSteering <= 1.0
    ensures t.linear.enable && t.linear.setpoint == 0.0 ==>
              o.vehicle.autonomousThrottle == 0.0 && o.twist.linear == t.linear
    ensures t.angular.enable && t.angular.setpoint == 0.0 ==>
              o.vehicle.autonomousSteering == 0.0 && o.twist.angular == t.angular
    ensures t.linear.enable && t.linear.setpoint != 0.0 ==>
              o.vehicle.autonomousThrottle
              == Clamp(Pid.Control(t.linear.pid.value, t.linear.setpoint - linearVelocity, now).u, -1.0, 1.0)
    ensures t.angular.enable && t.angular.setpoint != 0.0 ==>
              o.vehicle.autonomousSteering
              == Clamp(Pid.Control(t.angular.pid.value, t.angular.setpoint - angularVelocity, now).u, -1.0, 1.0)
    ensures o.vehicle == v.(autonomousThrottle := o.vehicle.autonomousThrottle,
                            autonomousSteering := o.vehicle.autonomousSteering)
    ensures Ready(o.twist.linear) && Ready(o.twist.angular)
  {
    var lin := Step(t.linear, linearVelocity, now);
    var ang := Step(t.angular, angularVelocity, now);
    var v1 := Apply(v, lin.command, true);
    var v2 := Apply(v1, ang.command, false);
    UpdateOut(Twist(lin.channel, ang.channel), v2)
  }

  /** The two loops are independent: the throttle and the linear channel do
      not depend on anything of the angular channel or the yaw rate, and
      vice versa. */
  lemma ChannelsIndependent(t: Twist, t2: Twist, v: VehicleController.Vehicle,
                            lin: real, ang: real, ang2: real, lin2: real, now: real)
    requires Ready(t.linear) && Ready(t.angular) && Ready(t2.linear) && Ready(t2.angular)
    ensures t2.linear == t.linear ==>
              && Update(t, v, lin, ang, now).twist.linear == Update(t2, v, lin, ang2, now).twist.linear
              && Update(t, v, lin, ang, now).vehicle.autonomousThrottle
                 == Update(t2, v, lin, ang2, now).vehicle.autonomousThrottle
    ensures t2.angular == t.angular ==>
              && Update(t, v, lin, ang, now).twist.angular == Update(t2, v, lin2, ang, now).twist.angular
              && Update(t, v, lin, ang, now).vehicle.autonomousSteering
                 == Update(t2, v, lin2, ang, now).vehicle.autonomousSteering
  {
  }

  /** A purely proportional loop with a positive gain commands in the
      direction of the error, so it pushes the measurement toward the
      setpoint: below the setpoint it accelerates, above it it brakes,
      and the command saturates at full scale once the error reaches
      `1/kP`. */
  lemma ProportionalTracksSetpoint(c: Channel, measured: real, now: real)
    requires Ready(c) && c.enable && c.setpoint != 0.0
    requires c.pid.value.kP > 0.0 && c.pid.value.kI == 0.0 && c.pid.value.kD == 0.0
    requires now > c.pid.value.tPrev
    ensures var cmd := Step(c, measured, now).command.value;
            && (measured < c.setpoint ==> 0.0 < cmd)
            && (measured > c.setpoint ==> cmd < 0.0)
            && (measured == c.setpoint ==> cmd == 0.0)
            && ((c.setpoint - measured) * c.pid.value.kP >= 1.0 ==> cmd == 1.0)
  {
    var p := c.pid.value;
    var err := c.setpoint - measured;
    var out := Pid.Control(p, err, now);
    assert out.u == p.kP * err;
    if measured < c.setpoint {
      assert p.kP * err > 0.0;
    } else if measured > c.setpoint {
      assert p.kP * err < 0.0 by { assert p.kP * (-err) > 0.0; }
    }
  }
}

=== FILE: vehicle_controller.dfy ===
/** The actuation logic of `VehicleController.cs`: the clamping setters the
    autonomy stack writes through, the rate-limited steering step, the
    drive/brake torque table over drive and brake types, and the skid-steer
    differential drive. Wheel colliders are reduced to the motor and brake
    torque they are given; the Ackermann wheel angles and wheel poses are not
    modelled. */
module VehicleController {
  import opened Common

  datatype DriveType = IRWD | IFWD | IAWD | CRWD | CFWD | CAWD | SkidSteer

  datatype BrakeType = CAWB | CRWB | IAWB | IRWB

  /** The inspector settings the actuation logic reads. */
  datatype Params = Params(
    driveType: DriveType,
    brakeType: BrakeType,
    throttleLimit: real,
    steeringRate: real,    // deg/s
    trackWidth: real,
    wheelRadius: real,
    motorTorque: real,     // N-m, also the parking brake torque
    steeringLimit: real,   // deg
    linearGain: real,
    angularGain: real)

  datatype Wheel = Wheel(motorTorque: real, brakeTorque: real)

  datatype Wheels = Wheels(frontLeft: Wheel, frontRight: Wheel, rearLeft: Wheel, rearRight: Wheel)

  /** The controller's mutable state. */
  datatype Vehicle = Vehicle(
    drivingMode: int,            // 0 manual, 1 autonomous
    kinematic: bool,             // the rigid body's isKinematic
    autonomousThrottle: real,
    autonomousSteering: real,
    driveTorque: real,
    brakeTorque: real,
    steeringAngle: real,         // deg
    lastSteeringAngle: real,     // deg
    linearInput: real,
    angularInput: real,
    currentT: Float,             // reported throttle
    currentS: real,              // reported steering
    wheels: Wheels)

  /** The `CurrentThrottle` setter. */
  function SetThrottle(v: Vehicle, value: real): (v': Vehicle)
    ensures -1.0 <= v'.autonomousThrottle <= 1.0
    ensures -1.0 <= value <= 1.0 ==> v'.autonomousThrottle == value
    ensures value < -1.0 ==> v'.autonomousThrottle == -1.0
    ensures 1.0 < value ==> v'.autonomousThrottle == 1.0
    ensures v' == v.(autonomousThrottle := v'.autonomousThrottle)
  {
    v.(autonomousThrottle := Clamp(value, -1.0, 1.0))
  }

  /** The `CurrentSteeringAngle` setter. */
  function SetSteering(v: Vehicle, value: real): (v': Vehicle)
    ensures -1.0 <= v'.autonomousSteering <= 1.0
    ensures -1.0 <= value <= 1.0 ==> v'.autonomousSteering == value
    ensures value < -1.0 ==> v'.autonomousSteering == -1.0
    ensures 1.0 < value ==> v'.autonomousSteering == 1.0
    ensures v' == v.(autonomousSteering := v'.autonomousSteering)
  {
    v.(autonomousSteering := Clamp(value, -1.0, 1.0))
  }

  // ---------------------------------------------------------------- steering

  /** The steering angle the autonomous command asks for. */
  function Target(p: Params, v: Vehicle): real
  {
    -v.autonomousSteering * p.steeringLimit
  }

  /** The rate-limited approach to the target: step down (decrement) or up by
      `rate * dt`, never passing the target. */
  function Approach(angle: real, target: real, step: real, decrement: bool): (a: real)
    ensures decrement ==> target <= a && (a == target || a == angle - step)
    ensures !decrement ==> a <= target && (a == target || a == angle + step)
  {
    if decrement then
      var a := angle - step;
      if a <= target then target else a
    else
      var a := angle + step;
      if a >= target then target else a
  }

  /** The branch condition exactly as the script writes it:
      `AutonomousSteering > lastSteeringAngle / SteeringLimit`. */
  predicate DecrementsAsWritten(p: Params, v: Vehicle)
  {
    Above(Num(v.autonomousSteering), Div(v.lastSteeringAngle, p.steeringLimit))
  }

  /** The branch condition the decrement comment describes: the new command
      is above the command that produced the last angle,
      `AutonomousSteering > -lastSteeringAngle / SteeringLimit`. */
  predicate Decrements(p: Params, v: Vehicle)
  {
    Above(Num(v.autonomousSteering), Div(-v.lastSteeringAngle, p.steeringLimit))
  }

  /** `Steer` exactly as written (without the Ackermann wheel angles). */
  function SteerAsWritten(p: Params, v: Vehicle, steeringInput: real, dt: real): (v': Vehicle)
    ensures v' == v.(steeringAngle := v'.steeringAngle, lastSteeringAngle := v'.lastSteeringAngle)
    ensures v.drivingMode == 0 ==>
              v'.steeringAngle == -steeringInput * p.steeringLimit && v'.lastSteeringAngle == v.lastSteeringAngle
    ensures v.drivingMode != 0 ==> v'.lastSteeringAngle == v'.steeringAngle
    ensures v.drivingMode != 0 && DecrementsAsWritten(p, v) ==> v'.steeringAngle >= Target(p, v)
    ensures v.drivingMode != 0 && !DecrementsAsWritten(p, v) ==> v'.steeringAngle <= Target(p, v)
  {
    if v.drivingMode == 0 then v.(steeringAngle := -steeringInput * p.steeringLimit)
    else
      var a := Approach(v.steeringAngle, Target(p, v), p.steeringRate * dt, DecrementsAsWritten(p, v));
      v.(steeringAngle := a, lastSteeringAngle := a)
  }

  /** `Steer` with the branch condition corrected. */
  function Steer(p: Params, v: Vehicle, steeringInput: real, dt: real): (v': Vehicle)
    ensures v' == v.(steeringAngle := v'.steeringAngle, lastSteeringAngle := v'.lastSteeringAngle)
    ensures v.drivingMode == 0 ==>
              v'.steeringAngle == -steeringInput * p.steeringLimit && v'.lastSteeringAngle == v.lastSteeringAngle
    ensures v.drivingMode != 0 ==> v'.lastSteeringAngle == v'.steeringAngle
    ensures v.drivingMode != 0 && Decrements(p, v) ==> v'.steeringAngle >= Target(p, v)
    ensures v.drivingMode != 0 && !Decrements(p, v) ==> v'.steeringAngle <= Target(p, v)
  {
    if v.drivingMode == 0 then v.(steeringAngle := -steeringInput * p.steeringLimit)
    else
      var a := Approach(v.steeringAngle, Target(p, v), p.steeringRate * dt, Decrements(p, v));
      v.(steeringAngle := a, lastSteeringAngle := a)
  }

  /** As written, the target is a fixed point of the autonomous step: once
      the angle and the last angle sit on the target they stay there. */
  lemma TargetIsFixedPointAsWritten(p: Params, v: Vehicle, steeringInput: real, dt: real)
    requires v.drivingMode != 0 && p.steeringRate * dt >= 0.0
    requires v.steeringAngle == Target(p, v) && v.lastSteeringAngle == Target(p, v)
    ensures SteerAsWritten(p, v, steeringInput, dt).steeringAngle == Target(p, v)
    ensures SteerAsWritten(p, v, steeringInput, dt).lastSteeringAngle == Target(p, v)
  {
  }

  /** The corrected step has the same fixed point. */
  lemma TargetIsFixedPoint(p: Params, v: Vehicle, steeringInput: real, dt: real)
    requires v.drivingMode != 0 && p.steeringRate * dt >= 0.0
    requires v.steeringAngle == Target(p, v) && v.lastSteeringAngle == Target(p, v)
    ensures Steer(p, v, steeringInput, dt).steeringAngle == Target(p, v)
    ensures Steer(p, v, steeringInput, dt).lastSteeringAngle == Target(p, v)
  {
  }

  /** As written, a steering reversal from +15 to -15 degrees (limit 30,
      rate 315.789 deg/s, 20 ms tick) takes the increment branch and jumps
      the whole 30 degrees in one tick, well beyond the 6.3 degree rate limit. */
  lemma SteerAsWrittenSkipsRateLimit()
    ensures var p := Params(IRWD, CAWB, 1.0, 315.789, 153.0, 0.0325, 2.352, 30.0, 6.8, 0.008);
            var v := Vehicle(1, false, 0.0, 0.5, 0.0, 0.0, 15.0, 15.0, 0.0, 0.0, Num(0.0), 0.0,
                             Wheels(Wheel(0.0, 0.0), Wheel(0.0, 0.0), Wheel(0.0, 0.0), Wheel(0.0, 0.0)));
            var v' := SteerAsWritten(p, v, 0.0, 0.02);
            v'.steeringAngle == -15.0 && v.steeringAngle - v'.steeringAngle > p.steeringRate * 0.02
  {
    var p := Params(IRWD, CAWB, 1.0, 315.789, 153.0, 0.0325, 2.352, 30.0, 6.8, 0.008);
    var v := Vehicle(1, false, 0.0, 0.5, 0.0, 0.0, 15.0, 15.0, 0.0, 0.0, Num(0.0), 0.0,
                     Wheels(Wheel(0.0, 0.0), Wheel(0.0, 0.0), Wheel(0.0, 0.0), Wheel(0.0, 0.0)));
    assert Div(15.0, 30.0) == Num(0.5);
    assert !DecrementsAsWritten(p, v);
  }

  /** The corrected step is rate limited: in autonomous mode, with a
      positive steering limit and the last angle equal to the current one,
      the angle moves by at most `rate * dt`, never away from the target,
      and lands on the target once it is within one step. */
  lemma SteerIsRateLimited(p: Params, v: Vehicle, steeringInput: real, dt: real)
    requires v.drivingMode != 0 && p.steeringLimit > 0.0 && p.steeringRate * dt >= 0.0
    requires v.lastSteeringAngle == v.steeringAngle
    ensures var a := Steer(p, v, steeringInput, dt).steeringAngle;
            var step := p.steeringRate * dt;
            && -step <= a - v.steeringAngle <= step
            && (v.steeringAngle >= Target(p, v) ==> Target(p, v) <= a <= v.steeringAngle)
            && (v.steeringAngle <= Target(p, v) ==> v.steeringAngle <= a <= Target(p, v))
            && (-step <= v.steeringAngle - Target(p, v) <= step ==> a == Target(p, v))
  {
    var l := p.steeringLimit;
    var s := v.autonomousSteering;
    var last := v.lastSteeringAngle;
    assert Div(-last, l) == Num(-last / l);
    assert Decrements(p, v) <==> s > -last / l;
    assert s > -last / l <==> s * l > -last by {
      assert (-last / l) * l == -last;
      if s > -last / l {
        assert s * l > (-last / l) * l;
      } else {
        assert s * l <= (-last / l) * l;
      }
    }
    assert Target(p, v) == -(s * l);
  }

  // ------------------------------------------------------------- drive table

  /** Sum of the four motor torques. */
  function MotorSum(w: Wheels): real
  {
    w.frontLeft.motorTorque + w.frontRight.motorTorque + w.rearLeft.motorTorque + w.rearRight.motorTorque
  }

  function SetMotor(w: Wheel, t: real): Wheel { w.(motorTorque := t) }

  function SetBrake(w: Wheel, t: real): Wheel { w.(brakeTorque := t) }

  /** The decision table of `Drive` for a drive torque `torque` and a
      parking brake torque `brake`, applied to the wheels `w`. */
  function Distribute(d: DriveType, b: BrakeType, torque: real, brake: real, w: Wheels): (w': Wheels)
    // coasting: no motor torque; parking brakes per brake type
    ensures torque == 0.0 ==> MotorSum(w') == 0.0 && w'.frontLeft.motorTorque == 0.0 && w'.frontRight.motorTorque == 0.0
                              && w'.rearLeft.motorTorque == 0.0 && w'.rearRight.motorTorque == 0.0
    ensures torque == 0.0 && b == CAWB ==>
              w'.frontLeft.brakeTorque == brake && w'.frontRight.brakeTorque == brake
              && w'.rearLeft.brakeTorque == brake && w'.rearRight.brakeTorque == brake
    ensures torque == 0.0 && b == CRWB ==>
              w'.frontLeft.brakeTorque == 0.0 && w'.frontRight.brakeTorque == 0.0
              && w'.rearLeft.brakeTorque == brake && w'.rearRight.brakeTorque == brake
    ensures torque == 0.0 && (b == IAWB || b == IRWB) ==>
              w'.frontLeft.brakeTorque == w.frontLeft.brakeTorque && w'.frontRight.brakeTorque == w.frontRight.brakeTorque
              && w'.rearLeft.brakeTorque == w.rearLeft.brakeTorque && w'.rearRight.brakeTorque == w.rearRight.brakeTorque
    // negative torque with an independent brake type: brake instead of reversing
    ensures torque < 0.0 && b == IAWB ==>
              MotorSum(w') == 0.0 && w'.frontLeft.motorTorque == 0.0 && w'.rearLeft.motorTorque == 0.0
              && w'.frontRight.motorTorque == 0.0 && w'.rearRight.motorTorque == 0.0
              && w'.frontLeft.brakeTorque == -torque && w'.frontRight.brakeTorque == -torque
              && w'.rearLeft.brakeTorque == -torque && w'.rearRight.brakeTorque == -torque
    ensures torque < 0.0 && b == IRWB ==>
              MotorSum(w') == 0.0 && w'.frontLeft.motorTorque == 0.0 && w'.rearLeft.motorTorque == 0.0
              && w'.frontRight.motorTorque == 0.0 && w'.rearRight.motorTorque == 0.0
              && w'.frontLeft.brakeTorque == 0.0 && w'.frontRight.brakeTorque == 0.0
              && w'.rearLeft.brakeTorque == -torque && w'.rearRight.brakeTorque == -torque
    // driving: brakes released, torque to the driven wheels only
    ensures torque != 0.0 && !(torque < 0.0 && (b == IAWB || b == IRWB)) ==>
              && w'.frontLeft.brakeTorque == 0.0 && w'.frontRight.brakeTorque == 0.0
              && w'.rearLeft.brakeTorque == 0.0 && w'.rearRight.brakeTorque == 0.0
              && (d in {IRWD, CRWD, SkidSteer} ==>
                    w'.frontLeft.motorTorque == w.frontLeft.motorTorque && w'.frontRight.motorTorque == w.frontRight.motorTorque)
              && (d in {IFWD, CFWD, SkidSteer} ==>
                    w'.rearLeft.motorTorque == w.rearLeft.motorTorque && w'.rearRight.motorTorque == w.rearRight.motorTorque)
              && (d in {IRWD, IAWD} ==> w'.rearLeft.motorTorque == torque && w'.rearRight.motorTorque == torque)
              && (d in {IFWD, IAWD} ==> w'.frontLeft.motorTorque == torque && w'.frontRight.motorTorque == torque)
              && (d == CRWD ==> w'.rearLeft.motorTorque == w'.rearRight.motorTorque
                                && w'.rearLeft.motorTorque + w'.rearRight.motorTorque == torque)
              && (d == CFWD ==> w'.frontLeft.motorTorque == w'.frontRight.motorTorque
                                && w'.frontLeft.motorTorque + w'.frontRight.motorTorque == torque)
              && (d == CAWD ==> MotorSum(w') == torque
                                && w'.frontLeft.motorTorque == w'.frontRight.motorTorque == w'.rearLeft.motorTorque
                                   == w'.rearRight.motorTorque)
  {
    if torque == 0.0 then
      var m := Wheels(SetMotor(w.frontLeft, 0.0), SetMotor(w.frontRight, 0.0),
                      SetMotor(w.rearLeft, 0.0), SetMotor(w.rearRight, 0.0));
      match b
      case CAWB =>
        Wheels(SetBrake(m.frontLeft, brake), SetBrake(m.frontRight, brake),
               SetBrake(m.rearLeft, brake), SetBrake(m.rearRight, brake))
      case CRWB =>
        Wheels(SetBrake(m.frontLeft, 0.0), SetBrake(m.frontRight, 0.0),
               SetBrake(m.rearLeft, brake), SetBrake(m.rearRight, brake))
      case _ => m
    else if torque < 0.0 && b == IAWB then
      Wheels(Wheel(0.0, -torque), Wheel(0.0, -torque), Wheel(0.0, -torque), Wheel(0.0, -torque))
    else if torque < 0.0 && b == IRWB then
      Wheels(Wheel(0.0, 0.0), Wheel(0.0, 0.0), Wheel(0.0, -torque), Wheel(0.0, -torque))
    else
      var r := Wheels(SetBrake(w.frontLeft, 0.0), SetBrake(w.frontRight, 0.0),
                      SetBrake(w.rearLeft, 0.0), SetBrake(w.rearRight, 0.0));
      match d
      case IRWD => r.(rearLeft := SetMotor(r.rearLeft, torque), rearRight := SetMotor(r.rearRight, torque))
      case IFWD => r.(frontLeft := SetMotor(r.frontLeft, torque), frontRight := SetMotor(r.frontRight, torque))
      case IAWD =>
        Wheels(SetMotor(r.frontLeft, torque), SetMotor(r.frontRight, torque),
               SetMotor(r.rearLeft, torque), SetMotor(r.rearRight, torque))
      case CRWD => r.(rearLeft := SetMotor(r.rearLeft, torque / 2.0), rearRight := SetMotor(r.rearRight, torque / 2.0))
      case CFWD => r.(frontLeft := SetMotor(r.frontLeft, torque / 2.0), frontRight := SetMotor(r.frontRight, torque / 2.0))
      case CAWD =>
        Wheels(SetMotor(r.frontLeft, torque / 4.0), SetMotor(r.frontRight, torque / 4.0),
               SetMotor(r.rearLeft, torque / 4.0), SetMotor(r.rearRight, torque / 4.0))
      case SkidSteer => r
  }

  /** The drive torque commanded this tick, from the manual throttle input
      or the autonomous throttle. */
  function CommandedTorque(p: Params, v: Vehicle, throttleInput: real): real
  {
    p.throttleLimit * (if v.drivingMode == 0 then throttleInput else v.autonomousThrottle) * p.motorTorque
  }

  /** `Drive`: store the commanded torque, set the brake torque to the motor
      torque, and apply the decision table. */
  function Drive(p: Params, v: Vehicle, throttleInput: real): (v': Vehicle)
    ensures v'.driveTorque == CommandedTorque(p, v, throttleInput) && v'.brakeTorque == p.motorTorque
    ensures v'.wheels == Distribute(p.driveType, p.brakeType, v'.driveTorque, p.motorTorque, v.wheels)
    ensures v' == v.(driveTorque := v'.driveTorque, brakeTorque := v'.brakeTorque, wheels := v'.wheels)
  {
    var torque := CommandedTorque(p, v, throttleInput);
    v.(driveTorque := torque, brakeTorque := p.motorTorque,
       wheels := Distribute(p.driveType, p.brakeType, torque, p.motorTorque, v.wheels))
  }

  /** `ExtendedDifferentialDrive`: the skid-steer torques. */
  function DifferentialDrive(p: Params, v: Vehicle, throttleInput: real, steeringInput: real): (v': Vehicle)
    requires p.wheelRadius != 0.0
    ensures v'.linearInput == (if v.drivingMode == 0 then throttleInput else v.autonomousThrottle)
    ensures v'.angularInput == (if v.drivingMode == 0 then steeringInput else v.autonomousSteering)
    ensures v'.linearInput == 0.0 && v'.angularInput == 0.0 ==>
              && MotorSum(v'.wheels) == 0.0 && v'.wheels.frontLeft == v'.wheels.rearLeft == Wheel(0.0, p.motorTorque)
              && v'.wheels.frontRight == v'.wheels.rearRight == Wheel(0.0, p.motorTorque)
    ensures !(v'.linearInput == 0.0 && v'.angularInput == 0.0) ==>
              var w := v'.wheels;
              && w.frontLeft == w.rearLeft && w.frontRight == w.rearRight
              && w.frontLeft.brakeTorque == 0.0 && w.frontRight.brakeTorque == 0.0
              && w.frontRight.motorTorque - w.frontLeft.motorTorque
                 == p.angularGain * v'.angularInput * p.trackWidth / p.wheelRadius
              && w.frontRight.motorTorque + w.frontLeft.motorTorque
                 == p.linearGain * 2.0 * v'.linearInput / p.wheelRadius
    ensures v' == v.(linearInput := v'.linearInput, angularInput := v'.angularInput, wheels := v'.wheels)
  {
    var lin := if v.drivingMode == 0 then throttleInput else v.autonomousThrottle;
    var ang := if v.drivingMode == 0 then steeringInput else v.autonomousSteering;
    if lin == 0.0 && ang == 0.0 then
      var parked := Wheel(0.0, p.motorTorque);
      v.(linearInput := lin, angularInput := ang, wheels := Wheels(parked, parked, parked, parked))
    else
      v.(linearInput := lin, angularInput := ang,
         wheels := SkidWheels(p.linearGain * 2.0 * lin, p.angularGain * ang * p.trackWidth, p.wheelRadius))
  }

  /** The four skid-steer wheels for forward term `lg` and turning term
      `ag`: each side gets (lg ∓ ag) / 2R, front and rear alike, brakes off. */
  function SkidWheels(lg: real, ag: real, radius: real): (w: Wheels)
    requires radius != 0.0
    ensures w.frontLeft == w.rearLeft && w.frontRight == w.rearRight
    ensures w.frontLeft.brakeTorque == 0.0 && w.frontRight.brakeTorque == 0.0
    ensures w.frontRight.motorTorque - w.frontLeft.motorTorque == ag / radius
    ensures w.frontRight.motorTorque + w.frontLeft.motorTorque == lg / radius
  {
    var left := (lg - ag) / (2.0 * radius);
    var right := (lg + ag) / (2.0 * radius);
    SkidTorques(lg, ag, radius);
    Wheels(Wheel(left, 0.0), Wheel(right, 0.0), Wheel(left, 0.0), Wheel(right, 0.0))
  }

  /** The wheel-torque arithmetic of `DifferentialDrive`: the two sides
      differ by the turning term and add up to the forward term. */
  lemma SkidTorques(lg: real, ag: real, radius: real)
    requires radius != 0.0
    ensures (lg + ag) / (2.0 * radius) - (lg - ag) / (2.0 * radius) == ag / radius
    ensures (lg + ag) / (2.0 * radius) + (lg - ag) / (2.0 * radius) == lg / radius
  {
    var h := 2.0 * radius;
    assert (lg + ag) / h - (lg - ag) / h == (2.0 * ag) / h;
    assert (lg + ag) / h + (lg - ag) / h == (2.0 * lg) / h;
  }

  /** The state one physics tick leaves, given the vehicle `v` before it
      and the steering step's result `s`. In manual mode the body turns
      dynamic. The reported throttle and steering come from the state the
      previous tick left. The mode and the autonomous commands stay.
      Otherwise:
      - front/rear drives take the steering angles from `s` and are driven
        by `Drive`: the commanded torque, the motor torque as brake torque,
        and the drive table for the wheels; the skid inputs stay;
      - skid steer leaves the steering angles and the two torques alone
        and takes its inputs and wheels from `DifferentialDrive`. */
  predicate TickOutcome(p: Params, v: Vehicle, v': Vehicle, throttleInput: real, steeringInput: real, s: Vehicle)
    requires p.driveType == SkidSteer ==> p.wheelRadius != 0.0
  {
    && v'.kinematic == (v.kinematic && v.drivingMode != 0)
    && v'.drivingMode == v.drivingMode
    && v'.autonomousThrottle == v.autonomousThrottle && v'.autonomousSteering == v.autonomousSteering
    && (p.driveType != SkidSteer ==>
          && v'.currentT == Div(v.driveTorque, p.motorTorque)
          && v'.currentS == -v.steeringAngle * Deg2Rad
          && v'.steeringAngle == s.steeringAngle && v'.lastSteeringAngle == s.lastSteeringAngle
          && v'.driveTorque == CommandedTorque(p, v, throttleInput)
          && v'.brakeTorque == p.motorTorque
          && v'.wheels == Distribute(p.driveType, p.brakeType, v'.driveTorque, p.motorTorque, v.wheels)
          && v'.linearInput == v.linearInput && v'.angularInput == v.angularInput)
    && (p.driveType == SkidSteer ==>
          var d := DifferentialDrive(p, v, throttleInput, steeringInput);
          && v'.currentT == Num(v.linearInput) && v'.currentS == v.angularInput * 100.0
          && v'.steeringAngle == v.steeringAngle && v'.lastSteeringAngle == v.lastSteeringAngle
          && v'.driveTorque == v.driveTorque && v'.brakeTorque == v.brakeTorque
          && v'.linearInput == d.linearInput && v'.angularInput == d.angularInput && v'.wheels == d.wheels)
  }

  /** One physics tick after input sampling: report the throttle and
      steering from the state left by the previous tick, then steer (with
      the as-written or the corrected step) and drive, or drive
      differentially for skid steer. */
  function TickWith(p: Params, v: Vehicle, throttleInput: real, steeringInput: real, dt: real,
                    corrected: bool): (v': Vehicle)
    requires p.driveType == SkidSteer ==> p.wheelRadius != 0.0
    ensures TickOutcome(p, v, v', throttleInput, steeringInput,
                        if corrected then Steer(p, v, steeringInput, dt) else SteerAsWritten(p, v, steeringInput, dt))
  {
    if p.driveType != SkidSteer then TickSteered(p, v, throttleInput, steeringInput, dt, corrected)
    else TickSkid(p, v, throttleInput, steeringInput)
  }

  /** The tick for front, rear and all-wheel drive: report, steer, `Drive`. */
  function TickSteered(p: Params, v: Vehicle, throttleInput: real, steeringInput: real, dt: real,
                       corrected: bool): (v': Vehicle)
    requires p.driveType != SkidSteer
    ensures TickOutcome(p, v, v', throttleInput, steeringInput,
                        if corrected then Steer(p, v, steeringInput, dt) else SteerAsWritten(p, v, steeringInput, dt))
  {
    var v0 := if v.drivingMode == 0 then v.(kinematic := false) else v;
    var v1 := v0.(currentT := Div(v0.driveTorque, p.motorTorque), currentS := -v0.steeringAngle * Deg2Rad);
    var v2 := if corrected then Steer(p, v1, steeringInput, dt) else SteerAsWritten(p, v1, steeringInput, dt);
    SteerReadsOnlyCommand(p, v, v1, steeringInput, dt);
    assert CommandedTorque(p, v2, throttleInput) == CommandedTorque(p, v, throttleInput);
    Drive(p, v2, throttleInput)
  }

  /** The tick for skid steer: report, then `ExtendedDifferentialDrive`. */
  function TickSkid(p: Params, v: Vehicle, throttleInput: real, steeringInput: real): (v': Vehicle)
    requires p.driveType == SkidSteer && p.wheelRadius != 0.0
    ensures forall s :: TickOutcome(p, v, v', throttleInput, steeringInput, s)
  {
    var v0 := if v.drivingMode == 0 then v.(kinematic := false) else v;
    var v1 := v0.(currentT := Num(v0.linearInput), currentS := v0.angularInput * 100.0);
    DifferentialDriveReadsOnlyCommand(p, v, v1, throttleInput, steeringInput);
    DifferentialDrive(p, v1, throttleInput, steeringInput)
  }

  /** `ExtendedDifferentialDrive` reads only the mode and the autonomous
      commands, so the reported values and the kinematic switch do not
      affect the inputs or wheels it sets. */
  lemma DifferentialDriveReadsOnlyCommand(p: Params, v: Vehicle, w: Vehicle, throttleInput: real, steeringInput: real)
    requires p.wheelRadius != 0.0
    requires w.drivingMode == v.drivingMode
    requires w.autonomousThrottle == v.autonomousThrottle && w.autonomousSteering == v.autonomousSteering
    ensures DifferentialDrive(p, w, throttleInput, steeringInput).wheels
            == DifferentialDrive(p, v, throttleInput, steeringInput).wheels
    ensures DifferentialDrive(p, w, throttleInput, steeringInput).linearInput
            == DifferentialDrive(p, v, throttleInput, steeringInput).linearInput
    ensures DifferentialDrive(p, w, throttleInput, steeringInput).angularInput
            == DifferentialDrive(p, v, throttleInput, steeringInput).angularInput
  {
  }

  /** Both steering steps read only the mode, the two angles and the
      autonomous command, so the reported values and the body's kinematic
      switch do not affect them. */
  lemma SteerReadsOnlyCommand(p: Params, v: Vehicle, w: Vehicle, steeringInput: real, dt: real)
    requires w.drivingMode == v.drivingMode && w.autonomousSteering == v.autonomousSteering
    requires w.steeringAngle == v.steeringAngle && w.lastSteeringAngle == v.lastSteeringAngle
    ensures Steer(p, w, steeringInput, dt).steeringAngle == Steer(p, v, steeringInput, dt).steeringAngle
    ensures Steer(p, w, steeringInput, dt).lastSteeringAngle == Steer(p, v, steeringInput, dt).lastSteeringAngle
    ensures SteerAsWritten(p, w, steeringInput, dt).steeringAngle == SteerAsWritten(p, v, steeringInput, dt).steeringAngle
    ensures SteerAsWritten(p, w, steeringInput, dt).lastSteeringAngle
            == SteerAsWritten(p, v, steeringInput, dt).lastSteeringAngle
  {
    assert Target(p, w) == Target(p, v);
    assert Decrements(p, w) == Decrements(p, v);
    assert DecrementsAsWritten(p, w) == DecrementsAsWritten(p, v);
  }

  /** `FixedUpdate` as the script runs it, with the as-written `Steer`. */
  function FixedUpdate(p: Params, v: Vehicle, throttleInput: real, steeringInput: real, dt: real): (v': Vehicle)
    requires p.driveType == SkidSteer ==> p.wheelRadius != 0.0
    ensures TickOutcome(p, v, v', throttleInput, steeringInput, SteerAsWritten(p, v, steeringInput, dt))
  {
    TickWith(p, v, throttleInput, steeringInput, dt, false)
  }

  /** The same tick with the corrected steering step. */
  function FixedUpdateCorrected(p: Params, v: Vehicle, throttleInput: real, steeringInput: real, dt: real): (v': Vehicle)
    requires p.driveType == SkidSteer ==> p.wheelRadius != 0.0
    ensures TickOutcome(p, v, v', throttleInput, steeringInput, Steer(p, v, steeringInput, dt))
  {
    TickWith(p, v, throttleInput, steeringInput, dt, true)
  }

  /** The script's tick inherits the skipped rate limit: on the reversal of
      `SteerAsWrittenSkipsRateLimit` one tick moves the wheels the whole
      30 degrees. */
  lemma FixedUpdateSkipsRateLimit()
    ensures var p := Params(IRWD, CAWB, 1.0, 315.789, 153.0, 0.0325, 2.352, 30.0, 6.8, 0.008);
            var v := Vehicle(1, false, 0.0, 0.5, 0.0, 0.0, 15.0, 15.0, 0.0, 0.0, Num(0.0), 0.0,
                             Wheels(Wheel(0.0, 0.0), Wheel(0.0, 0.0), Wheel(0.0, 0.0), Wheel(0.0, 0.0)));
            var v' := FixedUpdate(p, v, 0.0, 0.0, 0.02);
            v'.steeringAngle == -15.0 && v.steeringAngle - v'.steeringAngle > p.steeringRate * 0.02
  {
    var p := Params(IRWD, CAWB, 1.0, 315.789, 153.0, 0.0325, 2.352, 30.0, 6.8, 0.008);
    var v := Vehicle(1, false, 0.0, 0.5, 0.0, 0.0, 15.0, 15.0, 0.0, 0.0, Num(0.0), 0.0,
                     Wheels(Wheel(0.0, 0.0), Wheel(0.0, 0.0), Wheel(0.0, 0.0), Wheel(0.0, 0.0)));
    SteerAsWrittenSkipsRateLimit();
    var s := SteerAsWritten(p, v, 0.0, 0.02);
    assert s.steeringAngle == -15.0;
    var v' := FixedUpdate(p, v, 0.0, 0.0, 0.02);
    assert TickOutcome(p, v, v', 0.0, 0.0, s);
    assert v'.steeringAngle == s.steeringAngle;
  }

  /** The corrected tick is rate limited whenever the last angle is the
      current one, which every autonomous tick leaves behind. */
  lemma FixedUpdateCorrectedIsRateLimited(p: Params, v: Vehicle, throttleInput: real, steeringInput: real, dt: real)
    requires p.driveType != SkidSteer
    requires v.drivingMode != 0 && p.steeringLimit > 0.0 && p.steeringRate * dt >= 0.0
    requires v.lastSteeringAngle == v.steeringAngle
    ensures var v' := FixedUpdateCorrected(p, v, throttleInput, steeringInput, dt);
            && -(p.steeringRate * dt) <= v'.steeringAngle - v.steeringAngle <= p.steeringRate * dt
            && v'.lastSteeringAngle == v'.steeringAngle
  {
    SteerIsRateLimited(p, v, steeringInput, dt);
  }

  /** The reported throttle lags one tick: it is the torque commanded on
      the previous tick over the motor torque, whatever is commanded on the
      current one. */
  lemma ReportedThrottleLags(p: Params, v: Vehicle, th1: real, st1: real, th2: real, st2: real, dt: real)
    requires p.driveType != SkidSteer
    ensures FixedUpdate(p, FixedUpdate(p, v, th1, st1, dt), th2, st2, dt).currentT
            == Div(CommandedTorque(p, v, th1), p.motorTorque)
  {
    var v1 := FixedUpdate(p, v, th1, st1, dt);
    assert v1.driveTorque == CommandedTorque(p, v, th1);
  }
}
